=== FILE: README.md ===
# Linked-data extension core in Dafny

This project models the computational core of the linked-data editor extension
(`src/extension.ts`). It covers five parts:

- **The visualisation compiler `buildD3Graph`.** It turns the statements of an RDF
  store into the `{nodes, links}` graph the force-directed view draws. It is
  modelled twice:
  - `D3Model` holds value-level functions (`Upsert`, `GraphStep`, `ResourceStep`,
    `LiteralStep`, `Step`, `Compile`, `CompileD3`) and the lemmas about them.
  - `D3Builder.GraphBuilder` is a class with the source's mutable state (the
    node table `nodesObject`, its key order and the `links` array). Each of its
    methods is proved to produce exactly the state the matching `D3Model`
    function describes.

  The well-formedness invariant is proved to hold after every statement:
  - every key is listed once, in first-insertion order;
  - every node is stored under its own id;
  - no node has a repeated type or attribute;
  - every link joins two nodes.

  The properties of single statements are proved too: type hiding, the
  `@graph` node, resource links, literal deduplication and its limits, and
  first-write-wins display fields.
- **The identifier builder.** `buildId`, `safeJSIdentifier` and the uri escape of
  `getOrCreateNode` (`Identifiers`), with the HTML escape proved lossless and the
  identifier collisions characterised exactly.
- **The strict N-Quads check** that decides whether a Turtle-language document is
  read as N-Quads (`NQuads`). The regular expression is modelled as the set of
  texts it matches somewhere.
- **The media-type decisions** of `getDataAndMediaType`, `doFormatConversion`,
  `loadRDF` and `serializeRDF` (`MediaTypes`).
- **The JSON-LD context walk `suggestContextPrefixes`** (`ContextPrefixes`). It
  feeds prefix suggestions to the serialiser.

rdflib's term rendering (`atomicTermToN3`, `toNT`, `toString`) is kept
uninterpreted: it is a `Printer` value of three functions, passed in. Strings are
sequences of characters. One character stands for one UTF-16 code unit.

Behaviour of the code that a reader may not expect:

- With types hidden, an `rdf:type` statement is skipped before its graph's node
  is created (lines 258-260 come before 268-275). A named graph holding only
  type statements therefore gets no node, and the type statement adds nothing to
  the subject's `types`.
- With types shown, an `rdf:type` statement adds the type to the subject **and**
  pushes a link (lines 281-307). No edge is suppressed.
- Resource links are never deduplicated: the same statement twice gives two
  links. Literal deduplication looks only at the subject's attributes, so it
  ignores the graph.
- A literal node's id is `safeJSIdentifier(s + p + o)`. This undelimited
  concatenation collides (`LiteralIdsCollide`), and two subjects can then share
  one literal node.
- The N-Quads check does not need a graph term, although the comment at line
  1006 says it does. The subject group of the pattern is optional, so a plain
  triple `s p o .` with an IRI or blank-node object matches once whitespace
  comes before it, for instance on any line after the first
  (`TripleAfterLineBreakIsNQuads`, `TwoTriplesAreNQuads`). Such a Turtle
  document is read as N-Quads.
- The N-Quads check succeeds when **one** matching statement occurs anywhere in
  the document. It does not require every line to match.
- The datatype suffix `(^^<.+>)?` of a quoted object begins with the anchor `^`,
  so it can only match empty, and a typed literal is never accepted as an object
  term. A typical typed-literal quad such as `TypedQuadLine` is therefore read as
  Turtle. The pattern is not anchored, though, so a quad whose literal holds two
  IRIs separated by a space can still match inside the quotes and be read as
  N-Quads (`TypedLiteralWithIrisIsNQuads`).
- TriG is refused only by the conversion guard. `loadRDF` itself passes it on to
  the parser.
- A document in an unrecognised language is not refused. It reaches the
  conversion with empty data and media type `""`.
- `suggestContextPrefixes` treats a string context such as
  `"@context": "https://schema.org"` as an object with one key per character
  index. It suggests each character under its index.
- A `null` inside an array context, or a `null` document in a top-level array,
  makes the walk throw (`Object.keys(null)`, reading `"@context"` of `null`).

## Model

| member | source | states |
|---|---|---|
| Identifiers.BuildId | src/extension.ts:358-373 | Fails exactly for a collection, with the collections message; the default graph yields the marker `DefaultGraph` |
| Identifiers.BuildIdOfResource | src/extension.ts:361-365 | A named or blank node whose value starts with `_` keeps its value; otherwise the id holds no `<` or `>` and decodes back to the abbreviation |
| Identifiers.BuildIdOfLiteral | src/extension.ts:366-367 | A literal's id is its `toString()` rendering, unescaped |
| Identifiers.HtmlEscape | src/extension.ts:365 | No `ensures`: the definition (three global `replace` passes, `&` first) is the model; `HtmlEscapeRoundTrip` and `HtmlEscapeInjective` carry its properties |
| Identifiers.HtmlEscapeRoundTrip | src/extension.ts:365 | Decoding the three entities after the three `replace` passes gives the abbreviation back (`&` is never escaped twice) |
| Identifiers.HtmlEscapeInjective | src/extension.ts:365 | Distinct abbreviations give distinct escaped ids |
| Identifiers.SafeJSIdentifier | src/extension.ts:354-356 | The identifier is `id_` followed by one character per input character; it holds only lower-case letters, digits and `_`, each position being the input's character lower-cased or `_` |
| Identifiers.SafeJSIdentifierCollides | src/extension.ts:354-356 | Two values get the same identifier if and only if they have the same length and agree at each position up to letter case and up to which non-word character stands there |
| Identifiers.SafeUri | src/extension.ts:233 | No `ensures`: the definition (the first `<`, then the first `>`, each replaced once) is the model; `SafeUriCounts`, `SafeUriOfBracketedIri` and `SafeUriKeepsSecondAngle` carry its properties |
| Identifiers.SafeUriCounts | src/extension.ts:233 | The uri escape removes exactly one `<` and one `>` when present; the others stay |
| Identifiers.SafeUriOfBracketedIri | src/extension.ts:233 | An IRI rendering `<...>` with no other angle bracket comes out with none |
| Identifiers.SafeUriKeepsSecondAngle | src/extension.ts:233 | A rendering with two `<` keeps one unescaped |
| NQuads.MatchesSomewhere | src/extension.ts:17 | No `ensures`: the staged definition (whitespace, IRI predicate, whitespace, object term, whitespace, graph term, optional whitespace, `.`, ending anywhere) is the model of a non-null `match`; `StatementShapeMatches` (shape ⇒ match) and `MatchDecomposes` (match ⇒ shape) tie it to the statement shape in both directions, and `MatchSurvivesContext` and the example lemmas carry its other properties |
| NQuads.MatchDecomposes | src/extension.ts:17 | Every matching text splits into some prefix, whitespace, an IRI, whitespace, an object term, whitespace, a graph term, optional whitespace, `.` and some suffix |
| NQuads.TripleAfterSpaceMatches | src/extension.ts:17 | Whitespace followed by `s p o .` with IRIs `s`, `p` and an IRI or blank-node `o` makes the check match: the optional subject stays empty and the three terms fill predicate, object and graph |
| NQuads.StatementShapeMatches | src/extension.ts:17 | Whitespace, an IRI, whitespace, an object term, whitespace, a graph term, optional whitespace and `.`, anywhere in a text, make the check match |
| NQuads.QuadLineIsNQuads | src/extension.ts:17 | `<urn:a> <urn:b> "c" <urn:g> .` matches |
| NQuads.TripleLineIsNotNQuads | src/extension.ts:17 | `<urn:a> <urn:b> "c" .` (no graph term) does not match |
| NQuads.TypedQuadLineIsNotNQuads | src/extension.ts:17 | The typical typed-literal quad `TypedQuadLine` does not match: the suffix `(^^<.+>)?` can only match empty, so a typed literal is never accepted as an object term |
| NQuads.TypedLiteralWithIrisMatches | src/extension.ts:17 | A typed-literal quad whose literal holds `<a> <b>` does match, inside the quotes, because the pattern is not anchored |
| NQuads.MatchSurvivesContext | src/extension.ts:17 | A matching text still matches with any text before and after it |
| MediaTypes.GetDataAndMediaType | src/extension.ts:995-1021 | Each language id maps to its media type (iff in every case); a Turtle document is N-Quads iff the check matches; JSON gets the context-embedded text, other known kinds their own text, an unknown language `""` data and media type |
| MediaTypes.PlanConversion | src/extension.ts:975-984 | Refuses when the target equals the source format; otherwise refuses TriG; otherwise converts the same data between two distinct formats |
| MediaTypes.ConversionChangesFormat | src/extension.ts:977-984 | A conversion that goes ahead never targets its own format and never reads TriG |
| MediaTypes.TriGIsNeverConverted | src/extension.ts:981-984 | A TriG document is never converted, whatever the target |
| MediaTypes.UnknownLanguageIsNotRefused | src/extension.ts:975-1021 | A document in an unrecognised language is converted to any target with empty data and media type `""` |
| MediaTypes.LoadPlan | src/extension.ts:78-97 | JSON-LD, the default, is loaded through N-Quads; any other media type is parsed directly; the base IRI is always `https://example.com/test/` |
| MediaTypes.JsonIsLoadedThroughNQuads | src/extension.ts:86-90 | A JSON or JSON-LD document that is converted is loaded through N-Quads |
| MediaTypes.SerializePlan | src/extension.ts:106-116 | An undefined media type means JSON-LD; the output is re-indented exactly when it is JSON-LD |
| MediaTypes.DefaultsAgree | src/extension.ts:78-116 | Loading and serialising with no media type behave as with JSON-LD |
| MediaTypes.TripleLineIsTurtle | src/extension.ts:1003-1011 | The line `TripleLine`, whose object is a literal, on its own is read as Turtle |
| MediaTypes.QuadLineIsNQuadsType | src/extension.ts:1003-1011 | The same statement with a graph term is read as N-Quads |
| MediaTypes.TypedQuadLineIsTurtle | src/extension.ts:1003-1011 | The typical typed-literal quad `TypedQuadLine` is read as Turtle |
| MediaTypes.TypedLiteralWithIrisIsNQuads | src/extension.ts:1003-1011 | A typed-literal quad whose literal holds two IRIs separated by a space is read as N-Quads |
| MediaTypes.TripleAfterLineBreakIsNQuads | src/extension.ts:1003-1011 | A three-term statement with an IRI or blank-node object after a line break makes the whole Turtle document N-Quads, with no graph term anywhere |
| MediaTypes.TwoTriplesAreNQuads | src/extension.ts:1003-1011 | The two-triple document `TwoTriples`, which has no graph term, is read as N-Quads |
| MediaTypes.OneQuadLineMakesNQuads | src/extension.ts:1003-1011 | One quad line anywhere makes the whole Turtle document N-Quads |
| ContextPrefixes.GetContext | src/extension.ts:47-57 | A falsy context suggests nothing; every suggested key holds neither `:` nor `@` |
| ContextPrefixes.ProcessElements | src/extension.ts:52-53 | An array context throws iff one of its elements throws; every suggestion comes from one of its elements |
| ContextPrefixes.ProcessContext | src/extension.ts:31-45 | Only `null` (as `Object.keys(null)`) or an object with a nested context can throw; every suggested key is a prefix key |
| ContextPrefixes.ProcessMembers | src/extension.ts:31-45 | Complete: unless it throws, every member whose key holds neither `:` nor `@` is suggested with its `@id` (objects) or its value. Sound: every suggestion is such a member's, or comes from the walk of a nested `@context` member. It throws only when some key is `@context` |
| ContextPrefixes.DocumentContext | src/extension.ts:61 | A `null` document in a top-level array throws |
| ContextPrefixes.ProcessDocuments | src/extension.ts:60-62 | Every suggestion of a top-level array comes from one of its documents' contexts; every suggested key is a prefix key |
| ContextPrefixes.SuggestContextPrefixes | src/extension.ts:29-66 | `null` or a non-array document without `@context` suggests nothing; a non-array document with `@context` suggests exactly what that context suggests; a top-level array suggests only what its documents' contexts suggest; every suggested key is a prefix key |
| ContextPrefixes.ArrayContextConcatenates | src/extension.ts:52-53 | An array context's parts are walked in order, the second only if the first did not throw |
| ContextPrefixes.SingletonArrayContext | src/extension.ts:52-56 | An object context wrapped in a one-element array suggests the same |
| ContextPrefixes.NullInArrayContextThrows | src/extension.ts:31-53 | A `null` anywhere in an array context makes the walk throw |
| ContextPrefixes.ObjectContextComplete | src/extension.ts:31-39 | Every prefix-key member of an object context is suggested |
| ContextPrefixes.FlatObjectContextInOrder | src/extension.ts:31-45 | An object context with no nested `@context` suggests exactly its prefix-key members, once each, in member order, and does not throw |
| ContextPrefixes.FlatObjectContextNeverThrows | src/extension.ts:31-43 | An object context with no nested `@context` never throws |
| ContextPrefixes.NestedContextIncluded | src/extension.ts:40-41 | Whatever a nested `@context` suggests is suggested by the enclosing context |
| ContextPrefixes.StringContextSuggestsCharacters | src/extension.ts:31-39 | The string context `"ab"` suggests `"a"` under `0` and `"b"` under `1` |
| ContextPrefixes.TermDefinitions | src/extension.ts:33-38 | A term is suggested with its string value, or with the `@id` of its object definition |
| ContextPrefixes.MissingContextSuggestsNothing | src/extension.ts:47-65 | A document whose `@context` is missing or falsy yields no suggestion |
| ContextPrefixes.TopLevelArrayConcatenates | src/extension.ts:60-62 | A top-level array of documents is walked document by document, stopping at the first throw |
| D3Model.NewNode | src/extension.ts:230-245 | A created node has no types and no attributes, its given name and group, and its uri escaped |
| D3Model.Upsert | src/extension.ts:230-253 | The key is present afterwards; an existing node is left untouched (first write wins); a new one is appended to the key order |
| D3Model.AddType | src/extension.ts:270-273 | The type is present afterwards, nothing else is lost, no duplicate is introduced and the display fields are unchanged |
| D3Model.GraphStep | src/extension.ts:268-275 | No `ensures`: the definition is the model; `NamedGraphGetsNode`, `GraphStepSettled` and `GraphStepKeepsLinks` carry its properties, and `GraphBuilder.AddGraphNode` is proved equal to it |
| D3Model.ResourceStep | src/extension.ts:277-307 | No `ensures`: the definition is the model; `ResourceStatement` and `ResourceLinksRepeat` carry its properties, and `GraphBuilder.AddResourceLink` is proved equal to it |
| D3Model.LiteralStep | src/extension.ts:308-349 | No `ensures`: the definition is the model; `NewLiteralStatement`, `KnownLiteralStatement`, `LiteralStatementIdempotent` and `LiteralIdsCollide` carry its properties, and `GraphBuilder.AddLiteral` is proved equal to it |
| D3Model.Apply | src/extension.ts:268-349 | No `ensures`: the definition (the graph step, then the resource or literal branch) is the model; `StepPreservesWellFormed` and `StepGrows` carry its properties |
| D3Model.StatementIds | src/extension.ts:262-266 | The four ids fail iff the subject, object or graph is a collection, with the collections message |
| D3Model.Step | src/extension.ts:255-351 | `processStatement` fails iff the statement is not skipped and one of its terms is a collection |
| D3Model.StepPreservesWellFormed | src/extension.ts:255-351 | A statement keeps the invariant: keys listed once in order, nodes under their own ids with no repeated type or attribute, every link between two nodes |
| D3Model.StepGrows | src/extension.ts:255-351 | A statement removes no node, key, link or attribute and changes no display field; only its literal node's types may be replaced |
| D3Model.TypeStatementHidden | src/extension.ts:258-260 | With types hidden, an `rdf:type` statement changes nothing, not even its graph's node |
| D3Model.NamedGraphGetsNode | src/extension.ts:268-275 | After a statement in a named graph, that graph has a node typed `@graph` exactly once (unless its literal node shares the graph's id) |
| D3Model.GraphStepSettled | src/extension.ts:268-275 | The graph step changes nothing once the graph's node is typed `@graph` |
| D3Model.ResourceStatement | src/extension.ts:277-307 | A resource object gives both ends nodes and pushes exactly one link; an `rdf:type` statement also types the subject with the object's id |
| D3Model.ResourceLinksRepeat | src/extension.ts:296-307 | The same resource statement twice pushes its link twice |
| D3Model.NewLiteralStatement | src/extension.ts:308-349 | A new literal pushes exactly one attribute and one link, the link's id and target being the literal node's id, typed `Literal`; a fresh literal node is named after the literal and grouped under the subject |
| D3Model.KnownLiteralStatement | src/extension.ts:314 | A literal the subject already has changes nothing beyond the graph step |
| D3Model.LiteralRepeatInAnyGraph | src/extension.ts:314 | After a literal statement, the same triple in any graph adds only that graph's node |
| D3Model.LiteralStatementIdempotent | src/extension.ts:308-349 | In the same graph a repeated literal statement is a no-op (unless its literal node shares the graph's id) |
| D3Model.LiteralIdsCollide | src/extension.ts:331 | Ids `a`,`bc`,`d` and `ab`,`c`,`d` give one literal node, kept with the first subject's group and name, and both links target it |
| D3Model.Compile | src/extension.ts:216-219 | Folding every statement in order gives a well-formed graph, or the first error |
| D3Model.CompileFailurePropagates | src/extension.ts:216-219 | An error on any prefix of the statements is the result of the whole compilation |
| D3Model.HidingTypesDropsTypeStatements | src/extension.ts:258-260 | Compiling with types hidden equals compiling with types shown after dropping every `rdf:type` statement |
| D3Model.NodeList | src/extension.ts:222-224 | The node list holds one node per key, in first-insertion order |
| D3Model.CompileFailsIff | src/extension.ts:216-219 | The compilation fails iff some statement is not skipped and holds a collection, and then with the collections message |
| D3Model.CompileD3 | src/extension.ts:206-228 | The result fails iff some statement is not skipped and holds a collection, with the collections message; otherwise node ids are distinct and every link's source and target are the ids of listed nodes |
| D3Builder.GraphBuilder.constructor | src/extension.ts:210-212 | A fresh builder has an empty node table, key order and link list |
| D3Builder.GraphBuilder.GetOrCreateNode | src/extension.ts:230-253 | The table becomes `Upsert` of the old one, and the returned node is the one stored under the key |
| D3Builder.GraphBuilder.SetNode | src/extension.ts:291 | The node is stored under the key; a new key goes last in the order |
| D3Builder.GraphBuilder.AddGraphNode | src/extension.ts:268-275 | The new state is `GraphStep` of the old one |
| D3Builder.GraphBuilder.AddResourceLink | src/extension.ts:277-307 | The new state is `ResourceStep` of the old one |
| D3Builder.GraphBuilder.AddLiteral | src/extension.ts:308-349 | The new state is `LiteralStep` of the old one |
| D3Builder.GraphBuilder.ProcessStatement | src/extension.ts:255-351 | Succeeds iff `Step` does, with its state; on the collections error the state is unchanged |
| D3Builder.GraphBuilder.ProcessAll | src/extension.ts:216-219 | The loop's state after every statement is `Compile` of the statements so far; the first error ends it |
| D3Builder.GraphBuilder.NodesInOrder | src/extension.ts:222-224 | Returns `NodeList` of the state: the nodes in first-insertion order |
| D3Builder.BuildD3Graph | src/extension.ts:206-228 | Returns exactly `CompileD3`: the first error, or the node list and links with the properties proved of it |

## Left out

- The editor integration: commands, webviews, messages, configuration, file
  pickers and documents (the `activate` body and the commands around it). It is
  host I/O.
- rdflib's parsers and serialisers, the SPARQL engine and the SHACL validator.
  These are foreign code. `loadRDF` and `serializeRDF` are modelled only by the
  routes they choose (`LoadPlan`, `SerializePlan`).
- jsonld.js (`JSONLDtoNQuads`) and `JSON.stringify`/`JSON.parse`. They are
  foreign code. The context-embedded JSON text is a parameter of
  `GetDataAndMediaType`.
- `getJSONwithEmbeddedContext`, YAML handling and context prefetching. They
  read from disk and the network.
- `getNonce`, which uses randomness.
- The promise chaining and `async` ordering around the core. There is no
  concurrency in the core itself.
- The query-result and CSV assembly for the SPARQL view, and the webview script
  `inspector.js`. They are presentation code.
- The webpack configuration files. They are build configuration.
- rdflib's term rendering (`atomicTermToN3`, `toNT`, `toString`) is
  uninterpreted. Properties that depend on what these functions print are not
  stated.
- The `"This is impossible!"` throw of `buildId`. Every term kind of the model
  is handled by an earlier branch, so it is unreachable.
- The `"Resource is undefined"` and `"Attributes are undefined"` throws. A
  present key always holds a node with an attribute list in the model.
- `Object.keys` lists integer-like keys first in ascending order. The model
  keeps an object's members in the order given. JSON objects with duplicate keys
  are also not modelled: `Lookup` takes the first member with the key.
- Characters outside the Basic Multilingual Plane: one model character stands
  for one UTF-16 code unit.
- ContextPrefixes.Truthy: `NaN` is not representable as a JSON number, so the
  only falsy number is `0`.
- The `suggestContextPrefixes` calls in the conversion and view code paths.
  Their surrounding control flow is host I/O; the walk itself is modelled.

=== FILE: context_prefixes.dfy ===
/**
 * `suggestContextPrefixes` (src/extension.ts:29-66): walk the `@context` of a parsed
 * JSON-LD document and hand every term definition to the serialiser as a prefix
 * suggestion. The serialiser's `suggestPrefix` callback is replaced by the list of
 * calls it receives, in order; a JavaScript `TypeError` thrown half-way (from
 * `Object.keys(null)` or from reading `"@context"` of `null`) ends the walk and is
 * recorded as `threw`, with the calls made before it kept.
 */
module ContextPrefixes {
  import opened Wrappers

  /** A value produced by `JSON.parse`; an object's members are in key order. */
  datatype Json =
    | JNull
    | JBool(b: bool)
    | JNum(n: real)
    | JStr(s: string)
    | JArr(items: seq<Json>)
    | JObj(members: seq<Member>)

  datatype Member = Member(key: string, value: Json)

  /** One `suggestPrefix(key, prefix)` call; `None` stands for `undefined`. */
  datatype Suggestion = Suggestion(prefix: string, iri: Option<Json>)

  /** The calls made, and whether the walk ended with an exception. */
  datatype Emitted = Emitted(suggestions: seq<Suggestion>, threw: bool)

  const Nothing: Emitted := Emitted([], false)

  /** Run `a`, then `b` unless `a` threw. */
  function Then(a: Emitted, b: Emitted): (r: Emitted)
  {
    if a.threw then a else Emitted(a.suggestions + b.suggestions, b.threw)
  }

  /** JavaScript truthiness of a JSON value. */
  predicate Truthy(v: Json)
  {
    match v
    case JNull => false
    case JBool(b) => b
    case JNum(n) => n != 0.0
    case JStr(s) => s != ""
    case _ => true
  }

  /** The value of the first member named `key`, or `undefined`. */
  function Lookup(ms: seq<Member>, key: string): (r: Option<Json>)
    ensures r.Some? <==> exists k | 0 <= k < |ms| :: ms[k].key == key
    ensures r.Some? ==> exists k | 0 <= k < |ms| :: ms[k].key == key && ms[k].value == r.value
  {
    if |ms| == 0 then None
    else if ms[0].key == key then Some(ms[0].value)
    else Lookup(ms[1..], key)
  }

  /** `v["@context"]` for a value that is not null. */
  function ContextOf(v: Json): (r: Option<Json>)
  {
    if v.JObj? then Lookup(v.members, "@context") else None
  }

  /** A key the walk suggests: it holds neither `:` nor `@`. */
  predicate IsPrefixKey(key: string)
  {
    ':' !in key && '@' !in key
  }

  /** The suggested IRI: an object's `@id`, otherwise the value itself. */
  function PrefixValue(v: Json): (r: Option<Json>)
  {
    if v.JObj? then Lookup(v.members, "@id") else Some(v)
  }

  function DigitChar(d: nat): (c: char)
    requires d < 10
    ensures '0' <= c <= '9'
  {
    "0123456789"[d]
  }

  /** The decimal text of an array or string index, as `Object.keys` gives it. */
  function NatToString(n: nat): (r: string)
    ensures |r| > 0
    ensures forall i | 0 <= i < |r| :: '0' <= r[i] <= '9'
    ensures IsPrefixKey(r)
  {
    if n < 10 then [DigitChar(n)] else NatToString(n / 10) + [DigitChar(n % 10)]
  }

  /** Every suggested key is a prefix key. */
  predicate Clean(e: Emitted)
  {
    forall s | s in e.suggestions :: IsPrefixKey(s.prefix)
  }

  /**
   * `_getContext`: nothing for a falsy context, each element of an array through
   * `_processContext`, anything else through `_processContext` directly.
   */
  function GetContext(c: Json): (r: Emitted)
    ensures Clean(r)
    ensures !Truthy(c) ==> r == Nothing
    decreases c, 3, 0
  {
    if !Truthy(c) then Nothing
    else if c.JArr? then ProcessElements(c, 0)
    else ProcessContext(c)
  }

  /** The elements of an array context from index `i` on. */
  function ProcessElements(c: Json, i: nat): (r: Emitted)
    requires c.JArr? && i <= |c.items|
    ensures Clean(r)
    ensures r.threw <==> exists k | i <= k < |c.items| :: ProcessContext(c.items[k]).threw
    ensures forall s | s in r.suggestions ::
      exists k | i <= k < |c.items| :: s in ProcessContext(c.items[k]).suggestions
    decreases c, 0, |c.items| - i
  {
    if i == |c.items| then Nothing
    else Then(ProcessContext(c.items[i]), ProcessElements(c, i + 1))
  }

  /**
   * `_processContext`: `Object.keys` of the value, each prefix key suggested and each
   * `@context` key walked. `Object.keys(null)` throws; numbers and booleans have no
   * keys; strings and arrays have their indices as keys.
   */
  function ProcessContext(c: Json): (r: Emitted)
    ensures Clean(r)
    ensures r.threw ==>
      c.JNull? || (c.JObj? && exists k | 0 <= k < |c.members| :: c.members[k].key == "@context")
    decreases c, 1, 0
  {
    match c
    case JNull => Emitted([], true)
    case JBool(_) => Nothing
    case JNum(_) => Nothing
    case JStr(s) =>
      Emitted(seq(|s|, i requires 0 <= i < |s| => Suggestion(NatToString(i), Some(JStr([s[i]])))), false)
    case JArr(items) =>
      Emitted(seq(|items|, i requires 0 <= i < |items| => Suggestion(NatToString(i), PrefixValue(items[i]))), false)
    case JObj(ms) => ProcessMembers(c, 0)
  }

  /** The members of an object context from index `i` on. */
  function ProcessMembers(c: Json, i: nat): (r: Emitted)
    requires c.JObj? && i <= |c.members|
    ensures Clean(r)
    ensures !r.threw ==>
      forall k | i <= k < |c.members| && IsPrefixKey(c.members[k].key) ::
        Suggestion(c.members[k].key, PrefixValue(c.members[k].value)) in r.suggestions
    ensures r.threw ==> exists k | i <= k < |c.members| :: c.members[k].key == "@context"
    ensures forall s | s in r.suggestions ::
      exists k | i <= k < |c.members| ::
        (IsPrefixKey(c.members[k].key) && s == Suggestion(c.members[k].key, PrefixValue(c.members[k].value)))
        || (c.members[k].key == "@context" && s in GetContext(c.members[k].value).suggestions)
    decreases c, 0, |c.members| - i
  {
    if i == |c.members| then Nothing
    else
      var m := c.members[i];
      if IsPrefixKey(m.key) then
        var rest := ProcessMembers(c, i + 1);
        Emitted([Suggestion(m.key, PrefixValue(m.value))] + rest.suggestions, rest.threw)
      else if m.key == "@context" then
        Then(GetContext(m.value), ProcessMembers(c, i + 1))
      else ProcessMembers(c, i + 1)
  }

  /** `_getContext(undefined)` does nothing too. */
  function GetContextOf(c: Option<Json>): (r: Emitted)
    ensures Clean(r)
    ensures c == None ==> r == Nothing
  {
    if c == None then Nothing else GetContext(c.value)
  }

  /** One document of a top-level array: reading `"@context"` of `null` throws. */
  function DocumentContext(doc: Json): (r: Emitted)
    ensures Clean(r)
    ensures doc.JNull? ==> r.threw
  {
    if doc.JNull? then Emitted([], true) else GetContextOf(ContextOf(doc))
  }

  function ProcessDocuments(docs: seq<Json>, i: nat): (r: Emitted)
    requires i <= |docs|
    ensures Clean(r)
    ensures forall s | s in r.suggestions :: exists k | i <= k < |docs| :: s in DocumentContext(docs[k]).suggestions
    decreases |docs| - i
  {
    if i == |docs| then Nothing
    else Then(DocumentContext(docs[i]), ProcessDocuments(docs, i + 1))
  }

  /**
   * `suggestContextPrefixes`: nothing for `null`, the `@context` of each document of a
   * top-level array, otherwise the document's own `@context`.
   */
  function SuggestContextPrefixes(json: Json): (r: Emitted)
    ensures Clean(r)
    ensures json.JNull? ==> r == Nothing
    ensures !json.JArr? && ContextOf(json) == None ==> r == Nothing
    ensures !json.JArr? && ContextOf(json).Some? ==> r == GetContext(ContextOf(json).value)
    ensures json.JArr? ==> forall s | s in r.suggestions ::
      exists k | 0 <= k < |json.items| :: s in DocumentContext(json.items[k]).suggestions
  {
    match json
    case JNull => Nothing
    case JArr(docs) => ProcessDocuments(docs, 0)
    case _ => GetContextOf(ContextOf(json))
  }

  // ---------------------------------------------------------------------------
  // Properties

  lemma ThenAssociative(a: Emitted, b: Emitted, c: Emitted)
    ensures Then(Then(a, b), c) == Then(a, Then(b, c))
  {
    if !a.threw && !b.threw {
      assert a.suggestions + b.suggestions + c.suggestions == a.suggestions + (b.suggestions + c.suggestions);
    }
  }

  lemma ThenNothing(a: Emitted)
    ensures Then(a, Nothing) == a
  {
    if !a.threw {
      assert a.suggestions + [] == a.suggestions;
    }
  }

  lemma NothingThen(a: Emitted)
    ensures Then(Nothing, a) == a
  {
    assert [] + a.suggestions == a.suggestions;
  }

  /** The elements of `items[i..]` walked one after another. */
  lemma {:induction false} ElementsSplit(items: seq<Json>, more: seq<Json>, i: nat)
    requires i <= |items|
    ensures ProcessElements(JArr(items + more), i)
      == Then(ProcessElements(JArr(items), i), ProcessElements(JArr(more), 0))
    decreases |items| - i
  {
    var c := JArr(items + more);
    if i == |items| {
      ElementsShift(items, more, 0);
      NothingThen(ProcessElements(JArr(more), 0));
    } else {
      assert c.items[i] == items[i];
      ElementsSplit(items, more, i + 1);
      ThenAssociative(ProcessContext(items[i]), ProcessElements(JArr(items), i + 1), ProcessElements(JArr(more), 0));
    }
  }

  /** Walking `items + more` from past `items` is walking `more`. */
  lemma {:induction false} ElementsShift(items: seq<Json>, more: seq<Json>, j: nat)
    requires j <= |more|
    ensures ProcessElements(JArr(items + more), |items| + j) == ProcessElements(JArr(more), j)
    decreases |more| - j
  {
    if j < |more| {
      assert (items + more)[|items| + j] == more[j];
      ElementsShift(items, more, j + 1);
    }
  }

  /**
   * An array context of two parts suggests what the first part suggests, then (if that
   * did not throw) what the second part suggests.
   */
  lemma ArrayContextConcatenates(a: seq<Json>, b: seq<Json>)
    ensures GetContext(JArr(a + b)) == Then(GetContext(JArr(a)), GetContext(JArr(b)))
  {
    ElementsSplit(a, b, 0);
  }

  /** Wrapping an object context in a one-element array changes nothing. */
  lemma SingletonArrayContext(c: Json)
    requires c.JObj?
    ensures GetContext(JArr([c])) == GetContext(c)
  {
    assert ProcessElements(JArr([c]), 1) == Nothing;
    ThenNothing(ProcessContext(c));
  }

  /** `null` inside an array context throws: `Object.keys(null)`. */
  lemma NullInArrayContextThrows(a: seq<Json>, b: seq<Json>)
    ensures GetContext(JArr(a + [JNull] + b)).threw
  {
    var c := JArr(a + [JNull] + b);
    assert c.items[|a|] == JNull;
    assert ProcessContext(c.items[|a|]).threw;
  }

  /** Every member of an object context `@context` whose key is a prefix key is suggested. */
  lemma ObjectContextComplete(ms: seq<Member>, k: nat)
    requires k < |ms| && IsPrefixKey(ms[k].key)
    requires !GetContext(JObj(ms)).threw
    ensures Suggestion(ms[k].key, PrefixValue(ms[k].value)) in GetContext(JObj(ms)).suggestions
  {
  }

  /** The suggestions of the prefix-key members, in member order. */
  function PrefixSuggestions(ms: seq<Member>): (r: seq<Suggestion>)
    ensures |r| <= |ms|
  {
    if ms == [] then []
    else
      (if IsPrefixKey(ms[0].key) then [Suggestion(ms[0].key, PrefixValue(ms[0].value))] else [])
      + PrefixSuggestions(ms[1..])
  }

  lemma {:induction false} FlatMembersInOrder(c: Json, i: nat)
    requires c.JObj? && i <= |c.members|
    requires forall k | i <= k < |c.members| :: c.members[k].key != "@context"
    ensures ProcessMembers(c, i) == Emitted(PrefixSuggestions(c.members[i..]), false)
    decreases |c.members| - i
  {
    if i < |c.members| {
      FlatMembersInOrder(c, i + 1);
      assert c.members[i..][1..] == c.members[i + 1..];
    }
  }

  /**
   * An object context without a nested `@context` suggests exactly its prefix-key
   * members, once each, in member order, and does not throw.
   */
  lemma FlatObjectContextInOrder(ms: seq<Member>)
    requires forall k | 0 <= k < |ms| :: ms[k].key != "@context"
    ensures GetContext(JObj(ms)) == Emitted(PrefixSuggestions(ms), false)
  {
    FlatMembersInOrder(JObj(ms), 0);
  }

  /** An object context without a nested `@context` key never throws. */
  lemma FlatObjectContextNeverThrows(ms: seq<Member>)
    requires forall k | 0 <= k < |ms| :: ms[k].key != "@context"
    ensures !GetContext(JObj(ms)).threw
  {
  }

  /** What a nested `@context` suggests is suggested by the enclosing context too. */
  lemma {:induction false} NestedContextIncluded(c: Json, i: nat, k: nat)
    requires c.JObj? && i <= k < |c.members| && c.members[k].key == "@context"
    requires !ProcessMembers(c, i).threw
    ensures forall s | s in GetContext(c.members[k].value).suggestions :: s in ProcessMembers(c, i).suggestions
    decreases k - i
  {
    if i < k {
      NestedContextIncluded(c, i + 1, k);
    }
  }

  /**
   * A string context, as in `"@context": "https://schema.org"`, has its character
   * indices as keys, so each character is suggested under its index.
   */
  lemma StringContextSuggestsCharacters()
    ensures GetContext(JStr("ab")) == Emitted([Suggestion("0", Some(JStr("a"))), Suggestion("1", Some(JStr("b")))], false)
  {
    assert DigitChar(0) == '0' && DigitChar(1) == '1';
    var r := GetContext(JStr("ab"));
    assert |r.suggestions| == 2;
    assert r.suggestions[0] == Suggestion("0", Some(JStr("a")));
    assert r.suggestions[1] == Suggestion("1", Some(JStr("b")));
  }

  /** A term defined by an object is suggested with its `@id`, a string term with itself. */
  lemma TermDefinitions(iri: string)
    ensures GetContext(JObj([Member("ex", JStr(iri))])).suggestions == [Suggestion("ex", Some(JStr(iri)))]
    ensures GetContext(JObj([Member("ex", JObj([Member("@id", JStr(iri))]))])).suggestions
      == [Suggestion("ex", Some(JStr(iri)))]
  {
    var plain := JObj([Member("ex", JStr(iri))]);
    assert ProcessMembers(plain, 1) == Nothing;
    assert ProcessContext(plain).suggestions == [Suggestion("ex", Some(JStr(iri)))] + [];
    var defined := JObj([Member("ex", JObj([Member("@id", JStr(iri))]))]);
    assert ProcessMembers(defined, 1) == Nothing;
    assert PrefixValue(defined.members[0].value) == Some(JStr(iri));
    assert ProcessContext(defined).suggestions == [Suggestion("ex", Some(JStr(iri)))] + [];
  }

  /** A document whose `@context` is missing or falsy yields no suggestion. */
  lemma MissingContextSuggestsNothing(json: Json)
    requires json.JObj?
    requires ContextOf(json) == None || !Truthy(ContextOf(json).value)
    ensures SuggestContextPrefixes(json) == Nothing
  {
  }

  /** A top-level array of documents is walked document by document. */
  lemma {:induction false} DocumentsSplit(docs: seq<Json>, more: seq<Json>, i: nat)
    requires i <= |docs|
    ensures ProcessDocuments(docs + more, i) == Then(ProcessDocuments(docs, i), ProcessDocuments(more, 0))
    decreases |docs| - i
  {
    if i == |docs| {
      DocumentsShift(docs, more, 0);
      assert ProcessDocuments(docs, i) == Nothing;
    } else {
      assert (docs + more)[i] == docs[i];
      DocumentsSplit(docs, more, i + 1);
      ThenAssociative(DocumentContext(docs[i]), ProcessDocuments(docs, i + 1), ProcessDocuments(more, 0));
    }
  }

  lemma {:induction false} DocumentsShift(docs: seq<Json>, more: seq<Json>, j: nat)
    requires j <= |more|
    ensures ProcessDocuments(docs + more, |docs| + j) == ProcessDocuments(more, j)
    decreases |more| - j
  {
    if j < |more| {
      assert (docs + more)[|docs| + j] == more[j];
      DocumentsShift(docs, more, j + 1);
    }
  }

  /** A top-level array of documents suggests what its parts suggest, in order. */
  lemma TopLevelArrayConcatenates(a: seq<Json>, b: seq<Json>)
    ensures SuggestContextPrefixes(JArr(a + b)) == Then(SuggestContextPrefixes(JArr(a)), SuggestContextPrefixes(JArr(b)))
  {
    DocumentsSplit(a, b, 0);
  }
}

=== FILE: d3_builder.dfy ===
/**
 * `buildD3Graph` (src/extension.ts:206-352) as the source runs it: a node table and a
 * link list updated in place, one statement at a time. Every method is proved to do
 * what the value-level functions of d3_model.dfy say, so the properties proved there
 * hold of this code.
 */
module D3Builder {
  import opened Wrappers
  import opened Rdf
  import opened Identifiers
  import opened D3Model

  /**
   * The state of one `buildD3Graph` call: `nodesObject`, the order its keys were first
   * set in, and `links`. Nodes are held as values; the source's pushes into a node
   * object that is already in the map are modelled by storing the updated node back.
   */
  class GraphBuilder {
    var nodes: map<string, Node>
    var order: seq<string>
    var links: seq<Link>
    const printer: Printer
    const showTypes: bool

    function Snapshot(): Graph
      reads this
    {
      Graph(nodes, order, links)
    }

    constructor(printer: Printer, showTypes: bool)
      ensures Snapshot() == EmptyGraph
      ensures this.printer == printer && this.showTypes == showTypes
    {
      this.printer := printer;
      this.showTypes := showTypes;
      nodes := map[];
      order := [];
      links := [];
    }

    /** `getOrCreateNode`. */
    method GetOrCreateNode(qname: string, name: string, uri: string, group: string) returns (node: Node)
      modifies this
      ensures Snapshot() == Upsert(old(Snapshot()), qname, name, uri, group)
      ensures qname in nodes && node == nodes[qname]
    {
      var safeUri := SafeUri(uri);
      if qname !in nodes {
        node := Node(qname, name, safeUri, group, [], []);
        nodes := nodes[qname := node];
        order := order + [qname];
      } else {
        node := nodes[qname];
      }
    }

    /** `nodesObject.set(qname, node)`. */
    method SetNode(qname: string, node: Node)
      modifies this
      ensures Snapshot() == Put(old(Snapshot()), qname, node)
    {
      if qname !in nodes {
        order := order + [qname];
      }
      nodes := nodes[qname := node];
    }

    /** The graph step: a named graph's node gets `@graph` unless it has it already. */
    method AddGraphNode(gq: string, graphText: string)
      modifies this
      ensures Snapshot() == GraphStep(old(Snapshot()), gq, graphText)
    {
      if gq != DefaultGraphMarker {
        var graph := GetOrCreateNode(gq, gq, graphText, gq);
        if GraphNodeType !in graph.types {
          SetNode(gq, graph.(types := graph.types + [GraphNodeType]));
        } else {
          assert nodes[gq := graph] == nodes;
        }
      }
    }

    /** The named or blank node branch. */
    method AddResourceLink(ids: Ids, isType: bool, subjectNT: string, objectNT: string)
      modifies this
      ensures Snapshot() == ResourceStep(old(Snapshot()), ids, isType, subjectNT, objectNT)
    {
      var subject := GetOrCreateNode(ids.s, ids.s, subjectNT, ids.s);
      if isType && ids.o !in subject.types {
        subject := subject.(types := subject.types + [ids.o]);
      }
      SetNode(ids.s, subject);
      var g2 := Snapshot();
      var objectNode := GetOrCreateNode(ids.o, ids.o, objectNT, ids.o);
      SetNode(ids.o, objectNode);
      assert nodes == Upsert(g2, ids.o, ids.o, objectNT, ids.o).nodes;
      links := links + [Link(ids.s, ids.o, SafeJSIdentifier(ids.s + ids.p + ids.o), ids.p, ids.g)];
    }

    /** The literal branch. */
    method AddLiteral(ids: Ids, subjectNT: string, text: string)
      modifies this
      ensures Snapshot() == LiteralStep(old(Snapshot()), ids, subjectNT, text)
    {
      var subject := GetOrCreateNode(ids.s, ids.s, subjectNT, ids.s);
      var attr := Attribute(ids.p, ids.o);
      if attr !in subject.attributes {
        subject := subject.(attributes := subject.attributes + [attr]);
        SetNode(ids.s, subject);
        var lid := SafeJSIdentifier(ids.s + ids.p + ids.o);
        var objectNode := GetOrCreateNode(lid, text, text, ids.s);
        objectNode := objectNode.(types := [LiteralNodeType]);
        SetNode(lid, objectNode);
        links := links + [Link(ids.s, lid, lid, ids.p, ids.g)];
      }
    }

    /** `processStatement(s)`: `Fail` is the exception `buildId` throws. */
    method ProcessStatement(st: Statement) returns (outcome: Outcome<string>)
      modifies this
      ensures outcome.Pass? <==> Step(old(Snapshot()), st, printer, showTypes).Success?
      ensures outcome.Pass? ==> Snapshot() == Step(old(Snapshot()), st, printer, showTypes).value
      ensures outcome.Fail? ==> Snapshot() == old(Snapshot()) && outcome.error == CollectionsUnsupported
    {
      if !showTypes && st.predicateIri == RdfType {
        return Pass;
      }
      var sId := BuildId(printer, st.subject);
      if sId.Failure? {
        return Fail(sId.error);
      }
      // A predicate is a named node, for which `buildId` does not throw.
      var pId := BuildId(printer, NamedNode(st.predicateIri));
      var oId := BuildId(printer, st.obj);
      if oId.Failure? {
        return Fail(oId.error);
      }
      var gId := BuildId(printer, st.graph);
      if gId.Failure? {
        return Fail(gId.error);
      }
      var ids := Ids(sId.value, pId.value, oId.value, gId.value);
      assert StatementIds(printer, st) == Success(ids);
      AddGraphNode(ids.g, TermText(printer, st.graph));
      if st.obj.NamedNode? || st.obj.BlankNode? {
        AddResourceLink(ids, st.predicateIri == RdfType, printer.toNT(st.subject), printer.toNT(st.obj));
      } else if st.obj.Literal? {
        AddLiteral(ids, printer.toNT(st.subject), printer.toText(st.obj));
      }
      return Pass;
    }

    /** The loop over the statements (216-219); the first exception stops it. */
    method ProcessAll(statements: seq<Statement>) returns (outcome: Outcome<string>)
      requires Snapshot() == EmptyGraph
      modifies this
      ensures outcome.Pass? <==> Compile(statements, printer, showTypes).Success?
      ensures outcome.Pass? ==> Snapshot() == Compile(statements, printer, showTypes).value
      ensures outcome.Fail? ==> outcome.error == Compile(statements, printer, showTypes).error
    {
      var i := 0;
      while i < |statements|
        invariant 0 <= i <= |statements|
        invariant Compile(statements[..i], printer, showTypes) == Success(Snapshot())
      {
        var result := ProcessStatement(statements[i]);
        assert statements[..i + 1][..i] == statements[..i];
        if result.Fail? {
          CompileFailurePropagates(statements, i + 1, printer, showTypes);
          return result;
        }
        i := i + 1;
      }
      assert statements[..i] == statements;
      return Pass;
    }

    /** `nodesObject.forEach(...)`: the nodes in the order their keys were first set. */
    method NodesInOrder() returns (list: seq<Node>)
      requires WellFormed(Snapshot())
      ensures list == NodeList(Snapshot())
    {
      list := [];
      var j := 0;
      while j < |order|
        invariant 0 <= j <= |order|
        invariant list == NodeList(Snapshot())[..j]
      {
        list := list + [nodes[order[j]]];
        j := j + 1;
      }
    }
  }

  /**
   * `buildD3Graph`: every statement through `processStatement`, then the nodes of the
   * table in key order. The first exception ends it.
   */
  method BuildD3Graph(statements: seq<Statement>, printer: Printer, showTypes: bool)
    returns (r: Result<D3Graph, string>)
    ensures r == CompileD3(statements, printer, showTypes)
  {
    var builder := new GraphBuilder(printer, showTypes);
    var outcome := builder.ProcessAll(statements);
    if outcome.Fail? {
      return Failure(outcome.error);
    }
    var nodes := builder.NodesInOrder();
    return Success(D3Graph(nodes, builder.links));
  }
}

=== FILE: d3_model.dfy ===
/**
 * The visualisation graph that `buildD3Graph` (src/extension.ts:206-352) compiles from
 * the statements of a store, as values: the node table `nodesObject` (a JavaScript
 * `Map`, so it keeps first-insertion order), the link list and the functions that
 * say what one statement does to them. The class in d3_builder.dfy performs these
 * updates in place and is proved to agree with them.
 */
module D3Model {
  import opened Wrappers
  import opened Rdf
  import opened Identifiers

  /** The type given to a node that names a graph. */
  const GraphNodeType: string := "@graph"

  /** The type given to a literal value node. */
  const LiteralNodeType: string := "Literal"

  datatype Attribute = Attribute(property: string, value: string)

  /** `class Node`; `types` is the source's `type` array. */
  datatype Node = Node(
    id: string, name: string, uri: string, group: string,
    attributes: seq<Attribute>, types: seq<string>)

  datatype Link = Link(source: string, target: string, id: string, name: string, graph: string)

  /** The compiler's state: the node table with its key order, and the links. */
  datatype Graph = Graph(nodes: map<string, Node>, order: seq<string>, links: seq<Link>)

  /** What `buildD3Graph` returns. */
  datatype D3Graph = D3Graph(nodes: seq<Node>, links: seq<Link>)

  /** The identifiers of a statement's four terms. */
  datatype Ids = Ids(s: string, p: string, o: string, g: string)

  const EmptyGraph: Graph := Graph(map[], [], [])

  predicate NoDup<T(==)>(s: seq<T>)
  {
    forall i, j | 0 <= i < j < |s| :: s[i] != s[j]
  }

  /** A node stored under `key` is consistent. */
  predicate NodeOk(key: string, n: Node)
  {
    n.id == key && NoDup(n.types) && NoDup(n.attributes)
  }

  /**
   * The invariant of the compiler's state: the key order lists each key of the table
   * once, every node is stored under its own id with no repeated type or attribute,
   * and every link joins two nodes of the table.
   */
  predicate WellFormed(g: Graph)
  {
    (forall k | k in g.nodes :: k in g.order)
    && (forall k | k in g.order :: k in g.nodes)
    && NoDup(g.order)
    && (forall k | k in g.nodes :: NodeOk(k, g.nodes[k]))
    && (forall l | l in g.links :: l.source in g.nodes && l.target in g.nodes)
  }

  /** The fields that are fixed when a node is created. */
  predicate SameDisplay(a: Node, b: Node)
  {
    a.id == b.id && a.name == b.name && a.uri == b.uri && a.group == b.group
  }

  /**
   * `r` extends `g`: the key order and the links only grow at the end, no node
   * disappears or changes its display fields, attributes only grow at the end, and
   * types only grow, except at the key `reset` whose types may be replaced.
   */
  predicate Grows(g: Graph, r: Graph, reset: Option<string>)
  {
    g.order <= r.order && g.links <= r.links
    && forall k | k in g.nodes ::
      k in r.nodes && SameDisplay(g.nodes[k], r.nodes[k])
      && g.nodes[k].attributes <= r.nodes[k].attributes
      && (reset != Some(k) ==> forall t | t in g.nodes[k].types :: t in r.nodes[k].types)
  }

  // ---------------------------------------------------------------------------
  // getOrCreateNode and Map.set

  /** A new node: no types, no attributes, and the first `<` and `>` of its uri escaped. */
  function NewNode(key: string, name: string, uri: string, group: string): (n: Node)
    ensures NodeOk(key, n) && n.types == [] && n.attributes == []
    ensures n.name == name && n.group == group && n.uri == SafeUri(uri)
  {
    Node(key, name, SafeUri(uri), group, [], [])
  }

  /** `getOrCreateNode`: the node under `key`, created if absent; the first write wins. */
  function Upsert(g: Graph, key: string, name: string, uri: string, group: string): (r: Graph)
    ensures key in r.nodes && r.links == g.links
    ensures key in g.nodes ==> r == g
    ensures key !in g.nodes ==>
      r.nodes == g.nodes[key := NewNode(key, name, uri, group)] && r.order == g.order + [key]
    ensures |r.nodes| <= |g.nodes| + 1
  {
    if key in g.nodes then g
    else Graph(g.nodes[key := NewNode(key, name, uri, group)], g.order + [key], g.links)
  }

  /** `nodesObject.set(key, n)`: a present key keeps its place, a new one goes last. */
  function Put(g: Graph, key: string, n: Node): (r: Graph)
    ensures r.nodes == g.nodes[key := n] && r.links == g.links
    ensures key in g.nodes ==> r.order == g.order
  {
    Graph(g.nodes[key := n], if key in g.nodes then g.order else g.order + [key], g.links)
  }

  /** Push `t` onto the node's types unless it is there already. */
  function AddType(n: Node, t: string): (r: Node)
    ensures t in r.types && SameDisplay(n, r) && r.attributes == n.attributes
    ensures NoDup(n.types) ==> NoDup(r.types)
    ensures forall u | u in n.types :: u in r.types
    ensures forall u | u in r.types :: u in n.types || u == t
  {
    if t in n.types then n else n.(types := n.types + [t])
  }

  // ---------------------------------------------------------------------------
  // processStatement

  /** The identifier of a statement's literal node, and of every statement's link. */
  function LinkId(ids: Ids): (r: string)
    ensures |r| == |ids.s + ids.p + ids.o| + 3 && r[..3] == "id_"
  {
    SafeJSIdentifier(ids.s + ids.p + ids.o)
  }

  /** The graph step: a named graph gets a node typed `@graph`. */
  function GraphStep(g: Graph, gid: string, graphText: string): (r: Graph)
  {
    if gid == DefaultGraphMarker then g
    else
      var g1 := Upsert(g, gid, gid, graphText, gid);
      Put(g1, gid, AddType(g1.nodes[gid], GraphNodeType))
  }

  /**
   * A named or blank node object: both ends get nodes, an `rdf:type` statement types
   * the subject with the object's id, and a link is pushed.
   */
  function ResourceStep(g: Graph, ids: Ids, isType: bool, subjectNT: string, objectNT: string): (r: Graph)
  {
    var g1 := Upsert(g, ids.s, ids.s, subjectNT, ids.s);
    var subject := g1.nodes[ids.s];
    var g2 := Put(g1, ids.s, if isType then AddType(subject, ids.o) else subject);
    var g3 := Upsert(g2, ids.o, ids.o, objectNT, ids.o);
    g3.(links := g3.links + [Link(ids.s, ids.o, LinkId(ids), ids.p, ids.g)])
  }

  /**
   * A literal object: unless the subject already has the attribute, the attribute is
   * pushed, a literal node is created in the subject's group and typed `Literal`, and
   * a link to it is pushed.
   */
  function LiteralStep(g: Graph, ids: Ids, subjectNT: string, text: string): (r: Graph)
  {
    var g1 := Upsert(g, ids.s, ids.s, subjectNT, ids.s);
    var subject := g1.nodes[ids.s];
    var attr := Attribute(ids.p, ids.o);
    if attr in subject.attributes then g1
    else
      var g2 := Put(g1, ids.s, subject.(attributes := subject.attributes + [attr]));
      var lid := LinkId(ids);
      var g3 := Upsert(g2, lid, text, text, ids.s);
      var g4 := Put(g3, lid, g3.nodes[lid].(types := [LiteralNodeType]));
      g4.(links := g4.links + [Link(ids.s, lid, lid, ids.p, ids.g)])
  }

  /** The four `buildId` calls, subject first; the first collection throws. */
  function StatementIds(pr: Printer, st: Statement): (r: Result<Ids, string>)
    ensures r.Failure? <==> st.subject.Collection? || st.obj.Collection? || st.graph.Collection?
    ensures r.Failure? ==> r.error == CollectionsUnsupported
    ensures st.graph.DefaultGraph? && r.Success? ==> r.value.g == DefaultGraphMarker
  {
    match BuildId(pr, st.subject)
    case Failure(e) => Failure(e)
    case Success(s) =>
      match BuildId(pr, NamedNode(st.predicateIri))
      case Failure(e) => Failure(e)
      case Success(p) =>
        match BuildId(pr, st.obj)
        case Failure(e) => Failure(e)
        case Success(o) =>
          match BuildId(pr, st.graph)
          case Failure(e) => Failure(e)
          case Success(gq) => Success(Ids(s, p, o, gq))
  }

  /** Whether `processStatement` returns at once: a type statement with types hidden. */
  predicate Skipped(st: Statement, showTypes: bool)
  {
    !showTypes && st.predicateIri == RdfType
  }

  /** Everything after the identifiers are built. */
  function Apply(g: Graph, st: Statement, pr: Printer, ids: Ids): (r: Graph)
  {
    var g1 := GraphStep(g, ids.g, TermText(pr, st.graph));
    if st.obj.NamedNode? || st.obj.BlankNode? then
      ResourceStep(g1, ids, st.predicateIri == RdfType, pr.toNT(st.subject), pr.toNT(st.obj))
    else if st.obj.Literal? then
      LiteralStep(g1, ids, pr.toNT(st.subject), pr.toText(st.obj))
    else g1
  }

  /** `processStatement(s)`. */
  function Step(g: Graph, st: Statement, pr: Printer, showTypes: bool): (r: Result<Graph, string>)
    ensures r.Failure? <==>
      !Skipped(st, showTypes) && (st.subject.Collection? || st.obj.Collection? || st.graph.Collection?)
    ensures r.Failure? ==> r.error == CollectionsUnsupported
  {
    if Skipped(st, showTypes) then Success(g)
    else
      match StatementIds(pr, st)
      case Failure(e) => Failure(e)
      case Success(ids) => Success(Apply(g, st, pr, ids))
  }

  // ---------------------------------------------------------------------------
  // Well-formedness is kept

  lemma UpsertWellFormed(g: Graph, key: string, name: string, uri: string, group: string)
    requires WellFormed(g)
    ensures WellFormed(Upsert(g, key, name, uri, group))
  {
    var r := Upsert(g, key, name, uri, group);
    if key !in g.nodes {
      assert key !in g.order;
      forall i, j | 0 <= i < j < |r.order| ensures r.order[i] != r.order[j] {
        if j == |g.order| {
          assert r.order[i] == g.order[i];
        }
      }
    }
  }

  lemma UpsertGrows(g: Graph, key: string, name: string, uri: string, group: string)
    ensures Grows(g, Upsert(g, key, name, uri, group), None)
  {
  }

  lemma PutWellFormed(g: Graph, key: string, n: Node)
    requires WellFormed(g) && key in g.nodes && NodeOk(key, n)
    ensures WellFormed(Put(g, key, n))
  {
  }

  /** Storing a node with the same display fields, more attributes and more types. */
  lemma PutGrows(g: Graph, key: string, n: Node)
    requires key in g.nodes && SameDisplay(g.nodes[key], n)
    requires g.nodes[key].attributes <= n.attributes
    requires forall t | t in g.nodes[key].types :: t in n.types
    ensures Grows(g, Put(g, key, n), None)
  {
  }

  /** Storing a node with the same display fields and attributes, types replaced. */
  lemma PutResetGrows(g: Graph, key: string, n: Node)
    requires key in g.nodes && SameDisplay(g.nodes[key], n)
    requires g.nodes[key].attributes == n.attributes
    ensures Grows(g, Put(g, key, n), Some(key))
  {
  }

  lemma AddLinkWellFormed(g: Graph, l: Link)
    requires WellFormed(g) && l.source in g.nodes && l.target in g.nodes
    ensures WellFormed(g.(links := g.links + [l]))
  {
  }

  lemma AddLinkGrows(g: Graph, l: Link)
    ensures Grows(g, g.(links := g.links + [l]), None)
  {
  }

  lemma GrowsReflexive(g: Graph)
    ensures Grows(g, g, None)
  {
  }

  lemma GrowsTransitive(a: Graph, b: Graph, c: Graph, r1: Option<string>, r2: Option<string>)
    requires Grows(a, b, r1) && Grows(b, c, r2) && (r1 == None || r2 == None)
    ensures Grows(a, c, if r1 == None then r2 else r1)
  {
  }

  lemma GraphStepWellFormed(g: Graph, gid: string, graphText: string)
    requires WellFormed(g)
    ensures WellFormed(GraphStep(g, gid, graphText))
    ensures gid != DefaultGraphMarker ==>
      gid in GraphStep(g, gid, graphText).nodes && GraphNodeType in GraphStep(g, gid, graphText).nodes[gid].types
  {
    if gid != DefaultGraphMarker {
      UpsertWellFormed(g, gid, gid, graphText, gid);
      var g1 := Upsert(g, gid, gid, graphText, gid);
      PutWellFormed(g1, gid, AddType(g1.nodes[gid], GraphNodeType));
    }
  }

  lemma GraphStepGrows(g: Graph, gid: string, graphText: string)
    ensures Grows(g, GraphStep(g, gid, graphText), None)
  {
    if gid != DefaultGraphMarker {
      UpsertGrows(g, gid, gid, graphText, gid);
      var g1 := Upsert(g, gid, gid, graphText, gid);
      PutGrows(g1, gid, AddType(g1.nodes[gid], GraphNodeType));
      GrowsTransitive(g, g1, GraphStep(g, gid, graphText), None, None);
    }
  }

  lemma ResourceStepWellFormed(g: Graph, ids: Ids, isType: bool, subjectNT: string, objectNT: string)
    requires WellFormed(g)
    ensures WellFormed(ResourceStep(g, ids, isType, subjectNT, objectNT))
  {
    UpsertWellFormed(g, ids.s, ids.s, subjectNT, ids.s);
    var g1 := Upsert(g, ids.s, ids.s, subjectNT, ids.s);
    var subject := g1.nodes[ids.s];
    var n := if isType then AddType(subject, ids.o) else subject;
    PutWellFormed(g1, ids.s, n);
    var g2 := Put(g1, ids.s, n);
    UpsertWellFormed(g2, ids.o, ids.o, objectNT, ids.o);
    var g3 := Upsert(g2, ids.o, ids.o, objectNT, ids.o);
    AddLinkWellFormed(g3, Link(ids.s, ids.o, LinkId(ids), ids.p, ids.g));
  }

  lemma ResourceStepGrows(g: Graph, ids: Ids, isType: bool, subjectNT: string, objectNT: string)
    ensures Grows(g, ResourceStep(g, ids, isType, subjectNT, objectNT), None)
  {
    UpsertGrows(g, ids.s, ids.s, subjectNT, ids.s);
    var g1 := Upsert(g, ids.s, ids.s, subjectNT, ids.s);
    var subject := g1.nodes[ids.s];
    var n := if isType then AddType(subject, ids.o) else subject;
    PutGrows(g1, ids.s, n);
    var g2 := Put(g1, ids.s, n);
    GrowsTransitive(g, g1, g2, None, None);
    UpsertGrows(g2, ids.o, ids.o, objectNT, ids.o);
    var g3 := Upsert(g2, ids.o, ids.o, objectNT, ids.o);
    GrowsTransitive(g, g2, g3, None, None);
    AddLinkGrows(g3, Link(ids.s, ids.o, LinkId(ids), ids.p, ids.g));
    GrowsTransitive(g, g3, ResourceStep(g, ids, isType, subjectNT, objectNT), None, None);
  }

  lemma LiteralStepWellFormed(g: Graph, ids: Ids, subjectNT: string, text: string)
    requires WellFormed(g)
    ensures WellFormed(LiteralStep(g, ids, subjectNT, text))
  {
    UpsertWellFormed(g, ids.s, ids.s, subjectNT, ids.s);
    var g1 := Upsert(g, ids.s, ids.s, subjectNT, ids.s);
    var subject := g1.nodes[ids.s];
    var attr := Attribute(ids.p, ids.o);
    if attr !in subject.attributes {
      var n := subject.(attributes := subject.attributes + [attr]);
      assert NoDup(n.attributes);
      PutWellFormed(g1, ids.s, n);
      var g2 := Put(g1, ids.s, n);
      var lid := LinkId(ids);
      UpsertWellFormed(g2, lid, text, text, ids.s);
      var g3 := Upsert(g2, lid, text, text, ids.s);
      PutWellFormed(g3, lid, g3.nodes[lid].(types := [LiteralNodeType]));
      var g4 := Put(g3, lid, g3.nodes[lid].(types := [LiteralNodeType]));
      AddLinkWellFormed(g4, Link(ids.s, lid, lid, ids.p, ids.g));
    }
  }

  lemma LiteralStepGrows(g: Graph, ids: Ids, subjectNT: string, text: string)
    ensures Grows(g, LiteralStep(g, ids, subjectNT, text), Some(LinkId(ids)))
  {
    UpsertGrows(g, ids.s, ids.s, subjectNT, ids.s);
    var g1 := Upsert(g, ids.s, ids.s, subjectNT, ids.s);
    var subject := g1.nodes[ids.s];
    var attr := Attribute(ids.p, ids.o);
    var lid := LinkId(ids);
    if attr !in subject.attributes {
      var n := subject.(attributes := subject.attributes + [attr]);
      PutGrows(g1, ids.s, n);
      var g2 := Put(g1, ids.s, n);
      GrowsTransitive(g, g1, g2, None, None);
      UpsertGrows(g2, lid, text, text, ids.s);
      var g3 := Upsert(g2, lid, text, text, ids.s);
      GrowsTransitive(g, g2, g3, None, None);
      PutResetGrows(g3, lid, g3.nodes[lid].(types := [LiteralNodeType]));
      var g4 := Put(g3, lid, g3.nodes[lid].(types := [LiteralNodeType]));
      GrowsTransitive(g, g3, g4, None, Some(lid));
      AddLinkGrows(g4, Link(ids.s, lid, lid, ids.p, ids.g));
      GrowsTransitive(g, g4, LiteralStep(g, ids, subjectNT, text), Some(lid), None);
    }
  }

  /** `processStatement` keeps the invariant. */
  lemma StepPreservesWellFormed(g: Graph, st: Statement, pr: Printer, showTypes: bool)
    requires WellFormed(g)
    ensures Step(g, st, pr, showTypes).Success? ==> WellFormed(Step(g, st, pr, showTypes).value)
  {
    if !Skipped(st, showTypes) && StatementIds(pr, st).Success? {
      var ids := StatementIds(pr, st).value;
      var g1 := GraphStep(g, ids.g, TermText(pr, st.graph));
      GraphStepWellFormed(g, ids.g, TermText(pr, st.graph));
      if st.obj.NamedNode? || st.obj.BlankNode? {
        ResourceStepWellFormed(g1, ids, st.predicateIri == RdfType, pr.toNT(st.subject), pr.toNT(st.obj));
      } else if st.obj.Literal? {
        LiteralStepWellFormed(g1, ids, pr.toNT(st.subject), pr.toText(st.obj));
      }
    }
  }

  /**
   * Nothing `processStatement` does removes a node, changes a node's id, name, uri or
   * group (the first write wins), drops an attribute or a link, or moves a key; only
   * the literal node's types may be replaced.
   */
  lemma StepGrows(g: Graph, st: Statement, pr: Printer, showTypes: bool)
    ensures Step(g, st, pr, showTypes).Success? ==>
      Grows(g, Step(g, st, pr, showTypes).value, ResetKey(pr, st, showTypes))
  {
    if !Skipped(st, showTypes) && StatementIds(pr, st).Success? {
      var ids := StatementIds(pr, st).value;
      var g1 := GraphStep(g, ids.g, TermText(pr, st.graph));
      GraphStepGrows(g, ids.g, TermText(pr, st.graph));
      if st.obj.NamedNode? || st.obj.BlankNode? {
        ResourceStepGrows(g1, ids, st.predicateIri == RdfType, pr.toNT(st.subject), pr.toNT(st.obj));
        GrowsTransitive(g, g1, Apply(g, st, pr, ids), None, None);
      } else if st.obj.Literal? {
        LiteralStepGrows(g1, ids, pr.toNT(st.subject), pr.toText(st.obj));
        GrowsTransitive(g, g1, Apply(g, st, pr, ids), None, Some(LinkId(ids)));
      }
    } else {
      GrowsReflexive(g);
    }
  }

  /** The one key whose types a statement may replace: its literal node's. */
  function ResetKey(pr: Printer, st: Statement, showTypes: bool): (r: Option<string>)
  {
    if st.obj.Literal? && !Skipped(st, showTypes) && StatementIds(pr, st).Success? then
      Some(LinkId(StatementIds(pr, st).value))
    else None
  }

  // ---------------------------------------------------------------------------
  // What one statement does

  /** With types hidden, an `rdf:type` statement changes nothing, not even the graph node. */
  lemma TypeStatementHidden(g: Graph, st: Statement, pr: Printer)
    requires st.predicateIri == RdfType
    ensures Step(g, st, pr, false) == Success(g)
  {
  }

  /**
   * A statement in a named graph leaves a node for that graph typed `@graph` (once),
   * unless its literal node shares the graph's id and so replaces that node's types.
   */
  lemma NamedGraphGetsNode(g: Graph, st: Statement, pr: Printer, showTypes: bool)
    requires WellFormed(g) && !Skipped(st, showTypes) && StatementIds(pr, st).Success?
    requires StatementIds(pr, st).value.g != DefaultGraphMarker
    requires ResetKey(pr, st, showTypes) != Some(StatementIds(pr, st).value.g)
    ensures var gid := StatementIds(pr, st).value.g;
      var r := Step(g, st, pr, showTypes).value;
      gid in r.nodes && GraphNodeType in r.nodes[gid].types && NoDup(r.nodes[gid].types)
  {
    var ids := StatementIds(pr, st).value;
    GraphStepWellFormed(g, ids.g, TermText(pr, st.graph));
    StepPreservesWellFormed(g, st, pr, showTypes);
    var g1 := GraphStep(g, ids.g, TermText(pr, st.graph));
    var r := Apply(g, st, pr, ids);
    assert Step(g, st, pr, showTypes) == Success(r);
    var reset := ResetKey(pr, st, showTypes);
    if st.obj.NamedNode? || st.obj.BlankNode? {
      ResourceStepGrows(g1, ids, st.predicateIri == RdfType, pr.toNT(st.subject), pr.toNT(st.obj));
    } else if st.obj.Literal? {
      LiteralStepGrows(g1, ids, pr.toNT(st.subject), pr.toText(st.obj));
    } else {
      GrowsReflexive(g1);
    }
    GrowsKeepsType(g1, r, reset, ids.g, GraphNodeType);
  }

  lemma GrowsKeepsType(a: Graph, b: Graph, reset: Option<string>, k: string, t: string)
    requires Grows(a, b, reset) && k in a.nodes && t in a.nodes[k].types && reset != Some(k)
    ensures k in b.nodes && t in b.nodes[k].types
  {
  }

  /** The graph step changes nothing once the graph's node is typed `@graph`. */
  lemma GraphStepSettled(g: Graph, gid: string, graphText: string)
    requires gid != DefaultGraphMarker ==> gid in g.nodes && GraphNodeType in g.nodes[gid].types
    ensures GraphStep(g, gid, graphText) == g
  {
    if gid != DefaultGraphMarker {
      var n := g.nodes[gid];
      assert AddType(n, GraphNodeType) == n;
      assert g.nodes[gid := n] == g.nodes;
    }
  }

  /**
   * A named or blank node object: subject and object have nodes and exactly one link
   * is pushed, on every call; an `rdf:type` statement also types the subject.
   */
  lemma ResourceStatement(g: Graph, st: Statement, pr: Printer, showTypes: bool)
    requires !Skipped(st, showTypes) && StatementIds(pr, st).Success?
    requires st.obj.NamedNode? || st.obj.BlankNode?
    ensures var ids := StatementIds(pr, st).value;
      var r := Step(g, st, pr, showTypes).value;
      ids.s in r.nodes && ids.o in r.nodes
      && r.links == GraphStep(g, ids.g, TermText(pr, st.graph)).links
        + [Link(ids.s, ids.o, LinkId(ids), ids.p, ids.g)]
      && (st.predicateIri == RdfType ==> ids.o in r.nodes[ids.s].types)
  {
  }

  /** Resource links are not deduplicated: the same statement twice gives the link twice. */
  lemma ResourceLinksRepeat(g: Graph, st: Statement, pr: Printer, showTypes: bool)
    requires !Skipped(st, showTypes) && StatementIds(pr, st).Success?
    requires st.obj.NamedNode? || st.obj.BlankNode?
    ensures var ids := StatementIds(pr, st).value;
      var l := Link(ids.s, ids.o, LinkId(ids), ids.p, ids.g);
      var r1 := Step(g, st, pr, showTypes).value;
      var r2 := Step(r1, st, pr, showTypes).value;
      r2.links == r1.links + [l] && r1.links[|r1.links| - 1] == l
  {
    var ids := StatementIds(pr, st).value;
    var r1 := Step(g, st, pr, showTypes).value;
    ResourceStatement(g, st, pr, showTypes);
    ResourceStatement(r1, st, pr, showTypes);
    GraphStepKeepsLinks(r1, ids.g, TermText(pr, st.graph));
  }

  lemma GraphStepKeepsLinks(g: Graph, gid: string, graphText: string)
    ensures GraphStep(g, gid, graphText).links == g.links
  {
  }

  /** The subject's attributes after the graph step, before the literal step. */
  function AttributesBefore(g: Graph, st: Statement, pr: Printer, ids: Ids): (r: seq<Attribute>)
  {
    var g1 := GraphStep(g, ids.g, TermText(pr, st.graph));
    if ids.s in g1.nodes then g1.nodes[ids.s].attributes else []
  }

  /**
   * A literal object the subject does not yet have: exactly one attribute and one link
   * are pushed, the link's id and target are the literal node's id, and that node is
   * typed `Literal` (a new one also named after the literal, in the subject's group).
   */
  lemma NewLiteralStatement(g: Graph, st: Statement, pr: Printer, showTypes: bool)
    requires !Skipped(st, showTypes) && StatementIds(pr, st).Success? && st.obj.Literal?
    requires var ids := StatementIds(pr, st).value;
      Attribute(ids.p, ids.o) !in AttributesBefore(g, st, pr, ids)
    ensures var ids := StatementIds(pr, st).value;
      var lid := LinkId(ids);
      var g1 := GraphStep(g, ids.g, TermText(pr, st.graph));
      var r := Step(g, st, pr, showTypes).value;
      ids.s in r.nodes && lid in r.nodes
      && r.nodes[ids.s].attributes == AttributesBefore(g, st, pr, ids) + [Attribute(ids.p, ids.o)]
      && r.links == g1.links + [Link(ids.s, lid, lid, ids.p, ids.g)]
      && r.nodes[lid].types == [LiteralNodeType]
      && (lid !in g1.nodes && lid != ids.s ==>
            r.nodes[lid].group == ids.s && r.nodes[lid].name == pr.toText(st.obj))
  {
  }

  /** A literal the subject already has changes nothing beyond the graph step. */
  lemma KnownLiteralStatement(g: Graph, st: Statement, pr: Printer, showTypes: bool)
    requires !Skipped(st, showTypes) && StatementIds(pr, st).Success? && st.obj.Literal?
    requires var ids := StatementIds(pr, st).value;
      Attribute(ids.p, ids.o) in AttributesBefore(g, st, pr, ids)
    ensures var ids := StatementIds(pr, st).value;
      Step(g, st, pr, showTypes) == Success(GraphStep(g, ids.g, TermText(pr, st.graph)))
  {
  }

  lemma GraphStepKeepsAttributes(g: Graph, gid: string, graphText: string, key: string)
    requires key in g.nodes
    ensures key in GraphStep(g, gid, graphText).nodes
    ensures GraphStep(g, gid, graphText).nodes[key].attributes == g.nodes[key].attributes
  {
  }

  /**
   * Literal deduplication ignores the graph: once a literal statement has been
   * processed, the same triple in any graph adds only that graph's node.
   */
  lemma LiteralRepeatInAnyGraph(g: Graph, st: Statement, h: Term, pr: Printer, showTypes: bool)
    requires !Skipped(st, showTypes) && StatementIds(pr, st).Success? && st.obj.Literal?
    requires !h.Collection?
    ensures var r := Step(g, st, pr, showTypes).value;
      var st2 := st.(graph := h);
      Step(r, st2, pr, showTypes) == Success(GraphStep(r, StatementIds(pr, st2).value.g, TermText(pr, h)))
  {
    var ids := StatementIds(pr, st).value;
    var r := Step(g, st, pr, showTypes).value;
    var st2 := st.(graph := h);
    var ids2 := StatementIds(pr, st2).value;
    assert ids2.s == ids.s && ids2.p == ids.p && ids2.o == ids.o;
    var attr := Attribute(ids.p, ids.o);
    var g1 := GraphStep(g, ids.g, TermText(pr, st.graph));
    if attr in AttributesBefore(g, st, pr, ids) {
      KnownLiteralStatement(g, st, pr, showTypes);
    } else {
      NewLiteralStatement(g, st, pr, showTypes);
    }
    assert ids.s in r.nodes && attr in r.nodes[ids.s].attributes;
    GraphStepKeepsAttributes(r, ids2.g, TermText(pr, h), ids.s);
    KnownLiteralStatement(r, st2, pr, showTypes);
  }

  /**
   * In the same graph, a repeated literal statement is a no-op, provided its literal
   * node does not share the graph's id.
   */
  lemma LiteralStatementIdempotent(g: Graph, st: Statement, pr: Printer, showTypes: bool)
    requires WellFormed(g)
    requires !Skipped(st, showTypes) && StatementIds(pr, st).Success? && st.obj.Literal?
    requires LinkId(StatementIds(pr, st).value) != StatementIds(pr, st).value.g
    ensures var r := Step(g, st, pr, showTypes).value;
      Step(r, st, pr, showTypes) == Success(r)
  {
    var ids := StatementIds(pr, st).value;
    var r := Step(g, st, pr, showTypes).value;
    LiteralRepeatInAnyGraph(g, st, st.graph, pr, showTypes);
    assert st.(graph := st.graph) == st;
    if ids.g != DefaultGraphMarker {
      NamedGraphGetsNode(g, st, pr, showTypes);
    }
    GraphStepSettled(r, ids.g, TermText(pr, st.graph));
  }

  /**
   * Literal ids are an undelimited concatenation: `a`,`bc`,`d` and `ab`,`c`,`d` give
   * the same literal node, so the second statement links to the first one's node.
   */
  lemma LiteralIdsCollide(gid: string, nt1: string, nt2: string, text1: string, text2: string)
    ensures var first := Ids("a", "bc", "d", gid);
      var second := Ids("ab", "c", "d", gid);
      var r1 := LiteralStep(EmptyGraph, first, nt1, text1);
      var r2 := LiteralStep(r1, second, nt2, text2);
      LinkId(first) == LinkId(second)
      && r2.links[0].target == r2.links[1].target == LinkId(first)
      && r2.nodes[LinkId(first)].group == "a" && r2.nodes[LinkId(first)].name == text1
  {
    var first := Ids("a", "bc", "d", gid);
    var second := Ids("ab", "c", "d", gid);
    assert first.s + first.p + first.o == second.s + second.p + second.o;
    var lid := LinkId(first);
    assert lid != "a" && lid != "ab";
  }

  // ---------------------------------------------------------------------------
  // The whole store

  /** The statements folded through `processStatement` in order; the first error stops it. */
  function Compile(sts: seq<Statement>, pr: Printer, showTypes: bool): (r: Result<Graph, string>)
    ensures r.Success? ==> WellFormed(r.value)
    decreases |sts|
  {
    if |sts| == 0 then Success(EmptyGraph)
    else
      match Compile(sts[..|sts| - 1], pr, showTypes)
      case Failure(e) => Failure(e)
      case Success(g) =>
        StepPreservesWellFormed(g, sts[|sts| - 1], pr, showTypes);
        Step(g, sts[|sts| - 1], pr, showTypes)
  }

  /** Whether `processStatement` throws on `st`: it is not skipped and holds a collection. */
  predicate Throws(st: Statement, showTypes: bool)
  {
    !Skipped(st, showTypes) && (st.subject.Collection? || st.obj.Collection? || st.graph.Collection?)
  }

  /**
   * The compilation fails exactly when some statement throws, and then with the
   * collections message.
   */
  lemma {:induction false} CompileFailsIff(sts: seq<Statement>, pr: Printer, showTypes: bool)
    ensures Compile(sts, pr, showTypes).Failure? <==> exists i | 0 <= i < |sts| :: Throws(sts[i], showTypes)
    ensures Compile(sts, pr, showTypes).Failure? ==> Compile(sts, pr, showTypes).error == CollectionsUnsupported
    decreases |sts|
  {
    if |sts| > 0 {
      var init := sts[..|sts| - 1];
      CompileFailsIff(init, pr, showTypes);
      assert forall i | 0 <= i < |init| :: init[i] == sts[i];
      assert (exists i | 0 <= i < |sts| :: Throws(sts[i], showTypes)) <==>
        (exists i | 0 <= i < |init| :: Throws(init[i], showTypes)) || Throws(sts[|sts| - 1], showTypes);
    }
  }

  /** `nodesObject.forEach(...)`: the nodes in key order. */
  function NodeList(g: Graph): (r: seq<Node>)
    requires WellFormed(g)
    ensures |r| == |g.order|
    ensures forall i | 0 <= i < |r| :: r[i].id == g.order[i] && r[i] == g.nodes[g.order[i]]
  {
    seq(|g.order|, i requires 0 <= i < |g.order| => g.nodes[g.order[i]])
  }

  /** Every link names the id of a listed node at both ends. */
  predicate LinksResolve(d: D3Graph)
  {
    forall l | l in d.links ::
      (exists i | 0 <= i < |d.nodes| :: d.nodes[i].id == l.source)
      && (exists i | 0 <= i < |d.nodes| :: d.nodes[i].id == l.target)
  }

  /** `buildD3Graph`: the node list and the links, or the first error. */
  function CompileD3(sts: seq<Statement>, pr: Printer, showTypes: bool): (r: Result<D3Graph, string>)
    ensures r.Success? ==> LinksResolve(r.value)
    ensures r.Success? ==> forall i, j | 0 <= i < j < |r.value.nodes| :: r.value.nodes[i].id != r.value.nodes[j].id
    ensures r.Failure? <==> Compile(sts, pr, showTypes).Failure?
    ensures r.Failure? <==> exists i | 0 <= i < |sts| :: Throws(sts[i], showTypes)
    ensures r.Failure? ==> r.error == CollectionsUnsupported
  {
    CompileFailsIff(sts, pr, showTypes);
    match Compile(sts, pr, showTypes)
    case Failure(e) => Failure(e)
    case Success(g) =>
      var d := D3Graph(NodeList(g), g.links);
      assert LinksResolve(d) by {
        forall l | l in d.links
          ensures (exists i | 0 <= i < |d.nodes| :: d.nodes[i].id == l.source)
            && (exists i | 0 <= i < |d.nodes| :: d.nodes[i].id == l.target)
        {
          var i :| 0 <= i < |g.order| && g.order[i] == l.source;
          var j :| 0 <= j < |g.order| && g.order[j] == l.target;
          assert d.nodes[i].id == l.source && d.nodes[j].id == l.target;
        }
      }
      Success(d)
  }

  /** An error in any statement is the result of the whole compilation. */
  lemma {:induction false} CompileFailurePropagates(sts: seq<Statement>, n: nat, pr: Printer, showTypes: bool)
    requires n <= |sts| && Compile(sts[..n], pr, showTypes).Failure?
    ensures Compile(sts, pr, showTypes) == Compile(sts[..n], pr, showTypes)
    decreases |sts| - n
  {
    if n < |sts| {
      assert sts[..n + 1][..n] == sts[..n];
      CompileFailurePropagates(sts, n + 1, pr, showTypes);
    } else {
      assert sts[..n] == sts;
    }
  }

  /** The statements that are not `rdf:type` statements. */
  function WithoutTypes(sts: seq<Statement>): (r: seq<Statement>)
    ensures |r| <= |sts|
    ensures forall st | st in r :: st in sts && st.predicateIri != RdfType
    ensures forall st | st in sts && st.predicateIri != RdfType :: st in r
  {
    if |sts| == 0 then []
    else
      var rest := WithoutTypes(sts[..|sts| - 1]);
      var last := sts[|sts| - 1];
      assert forall st | st in sts[..|sts| - 1] :: st in sts;
      assert forall st | st in sts :: st in sts[..|sts| - 1] || st == last;
      if last.predicateIri == RdfType then rest else rest + [last]
  }

  /**
   * Hiding types is the same as compiling with types shown after dropping every
   * `rdf:type` statement.
   */
  lemma {:induction false} HidingTypesDropsTypeStatements(sts: seq<Statement>, pr: Printer)
    ensures Compile(sts, pr, false) == Compile(WithoutTypes(sts), pr, true)
    decreases |sts|
  {
    if |sts| > 0 {
      var init := sts[..|sts| - 1];
      var last := sts[|sts| - 1];
      HidingTypesDropsTypeStatements(init, pr);
      if last.predicateIri != RdfType {
        var w := WithoutTypes(sts);
        assert w[..|w| - 1] == WithoutTypes(init);
      }
    }
  }
}

=== FILE: identifiers.dfy ===
/**
 * The term identifier builder: `buildId`, `safeJSIdentifier` and the two
 * string escapes the visualisation compiler applies (src/extension.ts).
 */
module Identifiers {
  import opened Wrappers
  import opened Rdf

  /** The message thrown for an RDF collection. */
  const CollectionsUnsupported: string :=
    "Unfortunately collections (lists) are not supported. Try converting to Turtle or N-Quads first."

  /** Number of occurrences of `c` in `s`. */
  function Count(c: char, s: string): (r: nat)
  {
    if s == [] then 0 else (if s[0] == c then 1 else 0) + Count(c, s[1..])
  }

  lemma {:induction false} CountZero(c: char, s: string)
    ensures Count(c, s) == 0 <==> c !in s
  {
    if s != [] {
      CountZero(c, s[1..]);
    }
  }

  // ---------------------------------------------------------------------------
  // Replacing every occurrence: `s.replace(/c/g, rep)`

  /** `s.replace(/c/g, rep)` for a one-character pattern `c`. */
  function ReplaceAll(s: string, c: char, rep: string): (r: string)
    ensures c !in rep ==> c !in r
    ensures forall d :: d != c && d !in rep && d !in s ==> d !in r
  {
    if s == [] then [] else (if s[0] == c then rep else [s[0]]) + ReplaceAll(s[1..], c, rep)
  }

  lemma {:induction false} ReplaceAllAppend(a: string, b: string, c: char, rep: string)
    ensures ReplaceAll(a + b, c, rep) == ReplaceAll(a, c, rep) + ReplaceAll(b, c, rep)
  {
    if a == [] {
      assert a + b == b;
    } else {
      assert (a + b)[0] == a[0];
      assert (a + b)[1..] == a[1..] + b;
      ReplaceAllAppend(a[1..], b, c, rep);
    }
  }

  /**
   * The HTML escape `buildId` applies to an abbreviated IRI: `&` first, then
   * `<`, then `>`, every occurrence of each.
   */
  function HtmlEscape(s: string): (r: string)
  {
    ReplaceAll(ReplaceAll(ReplaceAll(s, '&', "&amp;"), '<', "&lt;"), '>', "&gt;")
  }

  /** The entity one character escapes to. */
  function EscapeChar(c: char): (r: string)
  {
    if c == '&' then "&amp;" else if c == '<' then "&lt;" else if c == '>' then "&gt;" else [c]
  }

  /** Escaping character by character: the reference the three passes are compared with. */
  function EscapeChars(s: string): (r: string)
  {
    if s == [] then [] else EscapeChar(s[0]) + EscapeChars(s[1..])
  }

  /** Decoding the three entities back to their characters. */
  function Unescape(s: string): (r: string)
  {
    if |s| >= 5 && s[..5] == "&amp;" then ['&'] + Unescape(s[5..])
    else if |s| >= 4 && s[..4] == "&lt;" then ['<'] + Unescape(s[4..])
    else if |s| >= 4 && s[..4] == "&gt;" then ['>'] + Unescape(s[4..])
    else if s == [] then []
    else [s[0]] + Unescape(s[1..])
  }

  lemma ReplaceAllSingle(c: char, x: char, rep: string)
    ensures ReplaceAll([c], x, rep) == if c == x then rep else [c]
  {
    assert [c][0] == c && [c][1..] == [];
    assert ReplaceAll([c], x, rep) == (if c == x then rep else [c]) + ReplaceAll([], x, rep);
  }

  lemma HtmlEscapeOneChar(c: char)
    ensures HtmlEscape([c]) == EscapeChar(c)
  {
    ReplaceAllSingle(c, '&', "&amp;");
    if c == '&' {
      assert "&amp;" == ['&'] + "amp;";
      ReplaceAllAppend(['&'], "amp;", '<', "&lt;");
      ReplaceAllSingle('&', '<', "&lt;");
      ReplaceAllAppend(['&'], "amp;", '>', "&gt;");
      ReplaceAllSingle('&', '>', "&gt;");
    } else {
      ReplaceAllSingle(c, '<', "&lt;");
      if c == '<' {
        assert "&lt;" == ['&'] + "lt;";
        ReplaceAllAppend(['&'], "lt;", '>', "&gt;");
        ReplaceAllSingle('&', '>', "&gt;");
      } else {
        ReplaceAllSingle(c, '>', "&gt;");
      }
    }
  }

  lemma {:induction false} HtmlEscapeAppend(a: string, b: string)
    ensures HtmlEscape(a + b) == HtmlEscape(a) + HtmlEscape(b)
  {
    ReplaceAllAppend(a, b, '&', "&amp;");
    var a1, b1 := ReplaceAll(a, '&', "&amp;"), ReplaceAll(b, '&', "&amp;");
    ReplaceAllAppend(a1, b1, '<', "&lt;");
    var a2, b2 := ReplaceAll(a1, '<', "&lt;"), ReplaceAll(b1, '<', "&lt;");
    ReplaceAllAppend(a2, b2, '>', "&gt;");
  }

  /** The three sequential passes escape each character independently: `&` is never escaped twice. */
  lemma {:induction false} HtmlEscapeIsCharwise(s: string)
    ensures HtmlEscape(s) == EscapeChars(s)
  {
    if s != [] {
      assert s == [s[0]] + s[1..];
      HtmlEscapeAppend([s[0]], s[1..]);
      HtmlEscapeOneChar(s[0]);
      HtmlEscapeIsCharwise(s[1..]);
    }
  }

  lemma {:induction false} UnescapeEscapeChars(s: string)
    ensures Unescape(EscapeChars(s)) == s
  {
    if s != [] {
      var c, rest := s[0], EscapeChars(s[1..]);
      assert EscapeChars(s) == EscapeChar(c) + rest;
      UnescapeEscapeChars(s[1..]);
      if c == '&' {
        assert (EscapeChar(c) + rest)[..5] == "&amp;";
        assert (EscapeChar(c) + rest)[5..] == rest;
      } else if c == '<' {
        assert (EscapeChar(c) + rest)[1] == 'l';
        assert (EscapeChar(c) + rest)[..4] == "&lt;";
        assert (EscapeChar(c) + rest)[4..] == rest;
      } else if c == '>' {
        assert (EscapeChar(c) + rest)[1] == 'g';
        assert (EscapeChar(c) + rest)[..4] == "&gt;";
        assert (EscapeChar(c) + rest)[4..] == rest;
      } else {
        var e := [c] + rest;
        assert e[0] == c;
        assert e[1..] == rest;
      }
    }
  }

  /**
   * HTML escaping loses nothing: decoding the entities gives the abbreviation back,
   * so distinct abbreviations give distinct identifiers.
   */
  lemma HtmlEscapeRoundTrip(s: string)
    ensures Unescape(HtmlEscape(s)) == s
  {
    HtmlEscapeIsCharwise(s);
    UnescapeEscapeChars(s);
  }

  lemma HtmlEscapeInjective(a: string, b: string)
    ensures HtmlEscape(a) == HtmlEscape(b) ==> a == b
  {
    HtmlEscapeRoundTrip(a);
    HtmlEscapeRoundTrip(b);
  }

  // ---------------------------------------------------------------------------
  // Replacing the first occurrence: `uri.replace("<", "&lt;")`

  /** `s.replace(c, rep)` with a string pattern: only the first occurrence is replaced. */
  function ReplaceFirst(s: string, c: char, rep: string): (r: string)
  {
    if s == [] then []
    else if s[0] == c then rep + s[1..]
    else [s[0]] + ReplaceFirst(s[1..], c, rep)
  }

  lemma {:induction false} ReplaceFirstCount(s: string, c: char, rep: string, d: char)
    ensures Count(d, ReplaceFirst(s, c, rep)) ==
      if c in s then Count(d, s) - (if d == c then 1 else 0) + Count(d, rep) else Count(d, s)
  {
    if s != [] {
      if s[0] == c {
        CountAppend(d, rep, s[1..]);
      } else {
        ReplaceFirstCount(s[1..], c, rep, d);
        CountAppend(d, [s[0]], ReplaceFirst(s[1..], c, rep));
        assert c in s <==> c in s[1..] by {
          assert s == [s[0]] + s[1..];
        }
      }
    }
  }

  lemma {:induction false} CountAppend(c: char, a: string, b: string)
    ensures Count(c, a + b) == Count(c, a) + Count(c, b)
  {
    if a == [] {
      assert a + b == b;
    } else {
      assert (a + b)[0] == a[0];
      assert (a + b)[1..] == a[1..] + b;
      CountAppend(c, a[1..], b);
    }
  }

  /** The escape `getOrCreateNode` applies to a node's `uri`: the first `<`, then the first `>`. */
  function SafeUri(uri: string): (r: string)
  {
    ReplaceFirst(ReplaceFirst(uri, '<', "&lt;"), '>', "&gt;")
  }

  /**
   * `SafeUri` removes exactly one `<` and one `>` when there is one: a uri with
   * two `<` keeps the second.
   */
  lemma SafeUriCounts(uri: string)
    ensures Count('<', SafeUri(uri)) == if Count('<', uri) > 0 then Count('<', uri) - 1 else 0
    ensures Count('>', SafeUri(uri)) == if Count('>', uri) > 0 then Count('>', uri) - 1 else 0
  {
    var u1 := ReplaceFirst(uri, '<', "&lt;");
    ReplaceFirstCount(uri, '<', "&lt;", '<');
    ReplaceFirstCount(uri, '<', "&lt;", '>');
    ReplaceFirstCount(u1, '>', "&gt;", '<');
    ReplaceFirstCount(u1, '>', "&gt;", '>');
    CountZero('<', uri);
    CountZero('>', uri);
    CountZero('>', u1);
  }

  /** An N-Triples IRI `<...>` with no other angle bracket comes out with none. */
  lemma SafeUriOfBracketedIri(uri: string)
    requires Count('<', uri) <= 1 && Count('>', uri) <= 1
    ensures '<' !in SafeUri(uri) && '>' !in SafeUri(uri)
  {
    SafeUriCounts(uri);
    CountZero('<', SafeUri(uri));
    CountZero('>', SafeUri(uri));
  }

  /** A literal rendering with two `<` keeps one unescaped. */
  lemma SafeUriKeepsSecondAngle()
    ensures '<' in SafeUri("\"<b>x</b>\"")
  {
    var s := "\"<b>x</b>\"";
    SafeUriCounts(s);
    assert Count('<', s) == 2;
    CountZero('<', SafeUri(s));
  }

  // ---------------------------------------------------------------------------
  // safeJSIdentifier

  /** JavaScript's `\w`: ASCII letters, digits and underscore. */
  predicate IsWordChar(c: char)
  {
    ('a' <= c <= 'z') || ('A' <= c <= 'Z') || ('0' <= c <= '9') || c == '_'
  }

  /** The characters a safe identifier may contain. */
  predicate IsIdentChar(c: char)
  {
    ('a' <= c <= 'z') || ('0' <= c <= '9') || c == '_'
  }

  /** `s.replace(/\W/g, '_')`. */
  function ReplaceNonWord(s: string): (r: string)
    ensures |r| == |s|
    ensures forall i :: 0 <= i < |s| ==> r[i] == if IsWordChar(s[i]) then s[i] else '_'
  {
    if s == [] then [] else [if IsWordChar(s[0]) then s[0] else '_'] + ReplaceNonWord(s[1..])
  }

  function LowerChar(c: char): (r: char)
  {
    if 'A' <= c <= 'Z' then (c as int - 'A' as int + 'a' as int) as char else c
  }

  /**
   * `s.toLowerCase()`. It is only applied to strings of `\w` characters, on which
   * lower-casing the ASCII letters is the whole of JavaScript's behaviour.
   */
  function ToLower(s: string): (r: string)
    ensures |r| == |s|
    ensures forall i :: 0 <= i < |s| ==> r[i] == LowerChar(s[i])
  {
    if s == [] then [] else [LowerChar(s[0])] + ToLower(s[1..])
  }

  /** What one character of the input becomes in a safe identifier. */
  function FoldChar(c: char): (r: char)
  {
    if IsWordChar(c) then LowerChar(c) else '_'
  }

  /** `safeJSIdentifier(v)`: `id_` + v, non-word characters to `_`, lower-cased. */
  function SafeJSIdentifier(v: string): (r: string)
    ensures |r| == |v| + 3
    ensures r[..3] == "id_"
    ensures forall i :: 0 <= i < |r| ==> IsIdentChar(r[i])
    ensures forall i :: 0 <= i < |v| ==> r[i + 3] == FoldChar(v[i])
  {
    ToLower(ReplaceNonWord("id_" + v))
  }

  /**
   * Two values get the same identifier exactly when they agree position by
   * position up to letter case and up to which non-word character stands there.
   */
  lemma SafeJSIdentifierCollides(a: string, b: string)
    ensures SafeJSIdentifier(a) == SafeJSIdentifier(b) <==>
      |a| == |b| && forall i :: 0 <= i < |a| ==> FoldChar(a[i]) == FoldChar(b[i])
  {
    var ra, rb := SafeJSIdentifier(a), SafeJSIdentifier(b);
    if |a| == |b| && forall i :: 0 <= i < |a| ==> FoldChar(a[i]) == FoldChar(b[i]) {
      assert forall i :: 0 <= i < |ra| ==> ra[i] == rb[i] by {
        forall i | 0 <= i < |ra| ensures ra[i] == rb[i] {
          if i < 3 {
            assert ra[i] == ra[..3][i] && rb[i] == rb[..3][i];
          } else {
            assert ra[(i - 3) + 3] == rb[(i - 3) + 3];
          }
        }
      }
    }
    if ra == rb {
      forall i | 0 <= i < |a| ensures FoldChar(a[i]) == FoldChar(b[i]) {
        assert ra[i + 3] == rb[i + 3];
      }
    }
  }

  // ---------------------------------------------------------------------------
  // buildId

  /** `buildId(term, serializer)`. */
  function BuildId(pr: Printer, t: Term): (r: Result<string, string>)
    ensures r.Failure? <==> t.Collection?
    ensures r.Failure? ==> r.error == CollectionsUnsupported
    ensures t.DefaultGraph? ==> r == Success(DefaultGraphMarker)
  {
    if IsGraphTerm(t) && TermText(pr, t) == DefaultGraphMarker then Success(TermText(pr, t))
    else if t.NamedNode? || t.BlankNode? then
      if |Value(t)| > 0 && Value(t)[0] == '_' then Success(Value(t))
      else Success(HtmlEscape(pr.abbreviate(t)))
    else if t.Literal? then Success(pr.toText(t))
    else Failure(CollectionsUnsupported)
  }

  /**
   * Named and blank nodes: a `_`-prefixed value is kept as it is; anything else is the
   * abbreviation, escaped so that it holds no `<` or `>` and decodes back to the abbreviation.
   */
  lemma BuildIdOfResource(pr: Printer, t: Term)
    requires t.NamedNode? || t.BlankNode?
    requires pr.toText(t) != DefaultGraphMarker
    ensures BuildId(pr, t).Success?
    ensures |Value(t)| > 0 && Value(t)[0] == '_' ==> BuildId(pr, t).value == Value(t)
    ensures !(|Value(t)| > 0 && Value(t)[0] == '_') ==>
      var id := BuildId(pr, t).value;
      '<' !in id && '>' !in id && Unescape(id) == pr.abbreviate(t)
  {
    if !(|Value(t)| > 0 && Value(t)[0] == '_') {
      HtmlEscapeRoundTrip(pr.abbreviate(t));
    }
  }

  /** A literal's identifier is its full rendering, unescaped. */
  lemma BuildIdOfLiteral(pr: Printer, t: Term)
    requires t.Literal?
    ensures BuildId(pr, t) == Success(pr.toText(t))
  {
  }
}

=== FILE: media_types.dfy ===
/**
 * Media-type decisions around loading, converting and serialising documents:
 * `getDataAndMediaType`, the guards of `doFormatConversion`, and the defaults
 * of `loadRDF` and `serializeRDF` (src/extension.ts).
 */
module MediaTypes {
  import opened Wrappers
  import opened NQuads

  const JsonLd: string := "application/ld+json"
  const NQuadsType: string := "application/n-quads"
  const Turtle: string := "text/turtle"
  const TriG: string := "application/trig"
  const RdfXml: string := "application/rdf+xml"

  /** Base IRI handed to the parser for every document. */
  const ParseBase: string := "https://example.com/test/"

  /** The four targets of the conversion commands. */
  predicate IsConversionTarget(m: string)
  {
    m == NQuadsType || m == Turtle || m == RdfXml || m == JsonLd
  }

  /** `{ data, fromMediaType }`; both stay "" for an unrecognised language. */
  datatype Loaded = Loaded(data: string, fromMediaType: string)

  /**
   * `getDataAndMediaType`. The editor's language id picks the media type; a Turtle
   * document is taken as N-Quads when the strict N-Quads pattern matches anywhere in it.
   * `jsonWithContext` is the serialised document with its contexts embedded, which
   * the source reads from disk.
   */
  function GetDataAndMediaType(languageId: string, text: string, jsonWithContext: string): (r: Loaded)
    ensures languageId == "json" || languageId == "jsonld" <==> r.fromMediaType == JsonLd
    ensures r.fromMediaType == NQuadsType <==> languageId == "turtle" && MatchesSomewhere(text)
    ensures r.fromMediaType == Turtle <==> languageId == "turtle" && !MatchesSomewhere(text)
    ensures r.fromMediaType == TriG <==> languageId == "trig"
    ensures r.fromMediaType == RdfXml <==> languageId == "xml"
    ensures r.fromMediaType == "" <==> languageId !in {"json", "jsonld", "turtle", "trig", "xml"}
    ensures r.fromMediaType == "" ==> r.data == ""
    ensures r.fromMediaType == JsonLd ==> r.data == jsonWithContext
    ensures r.fromMediaType !in {JsonLd, ""} ==> r.data == text
  {
    if languageId == "json" || languageId == "jsonld" then Loaded(jsonWithContext, JsonLd)
    else if languageId == "turtle" then
      if MatchesSomewhere(text) then Loaded(text, NQuadsType) else Loaded(text, Turtle)
    else if languageId == "trig" then Loaded(text, TriG)
    else if languageId == "xml" then Loaded(text, RdfXml)
    else Loaded("", "")
  }

  /** What `doFormatConversion` does before any parsing. */
  datatype ConversionPlan =
    | AlreadyInFormat(mediaType: string)
    | TriGUnsupported
    | Convert(data: string, fromMediaType: string, toMediaType: string)

  /** The two guards of `doFormatConversion`, the same-format one first. */
  function PlanConversion(loaded: Loaded, toMediaType: string): (r: ConversionPlan)
    ensures r.AlreadyInFormat? <==> toMediaType == loaded.fromMediaType
    ensures r.TriGUnsupported? <==> toMediaType != loaded.fromMediaType && loaded.fromMediaType == TriG
    ensures r.Convert? ==>
      r.data == loaded.data && r.fromMediaType == loaded.fromMediaType &&
      r.toMediaType == toMediaType && r.fromMediaType != r.toMediaType && r.fromMediaType != TriG
    ensures r.AlreadyInFormat? ==> r.mediaType == toMediaType
  {
    if toMediaType == loaded.fromMediaType then AlreadyInFormat(toMediaType)
    else if loaded.fromMediaType == TriG then TriGUnsupported
    else Convert(loaded.data, loaded.fromMediaType, toMediaType)
  }

  /** How `loadRDF` reads a document: JSON-LD goes through jsonld.js to N-Quads first. */
  datatype LoadRoute =
    | ViaNQuads(base: string)
    | Parse(mediaType: string, base: string)

  /** `loadRDF`: an undefined media type means JSON-LD. */
  function LoadPlan(mediaType: Option<string>): (r: LoadRoute)
    ensures r.ViaNQuads? <==> mediaType == None || mediaType == Some(JsonLd)
    ensures r.Parse? ==> mediaType == Some(r.mediaType) && r.mediaType != JsonLd
    ensures r.base == ParseBase
  {
    var m := if mediaType == None then JsonLd else mediaType.value;
    if m == JsonLd then ViaNQuads(ParseBase) else Parse(m, ParseBase)
  }

  /** How `serializeRDF` writes a store: JSON-LD output is re-indented by four spaces. */
  datatype SerializeRoute = Serialize(mediaType: string, reindent: bool)

  /** `serializeRDF`: an undefined media type means JSON-LD. */
  function SerializePlan(mediaType: Option<string>): (r: SerializeRoute)
    ensures mediaType == None ==> r.mediaType == JsonLd
    ensures mediaType.Some? ==> r.mediaType == mediaType.value
    ensures r.reindent <==> r.mediaType == JsonLd
  {
    var m := if mediaType == None then JsonLd else mediaType.value;
    Serialize(m, m == JsonLd)
  }

  // ---------------------------------------------------------------------------
  // Properties

  /** A TriG document is never converted, whatever the target. */
  lemma TriGIsNeverConverted(text: string, json: string, toMediaType: string)
    ensures !PlanConversion(GetDataAndMediaType("trig", text, json), toMediaType).Convert?
  {
  }

  /** A converted document is never converted to its own format, nor read from TriG. */
  lemma ConversionChangesFormat(loaded: Loaded, toMediaType: string)
    requires PlanConversion(loaded, toMediaType).Convert?
    ensures loaded.fromMediaType != toMediaType && loaded.fromMediaType != TriG
  {
  }

  /**
   * A document in an unrecognised language gets media type "", which no conversion
   * target equals, so the conversion goes ahead with an empty document and media type "".
   */
  lemma UnknownLanguageIsNotRefused(languageId: string, text: string, json: string, toMediaType: string)
    requires languageId !in {"json", "jsonld", "turtle", "trig", "xml"}
    requires IsConversionTarget(toMediaType)
    ensures PlanConversion(GetDataAndMediaType(languageId, text, json), toMediaType) == Convert("", "", toMediaType)
  {
  }

  /** A converted JSON or JSON-LD document is always loaded through N-Quads. */
  lemma JsonIsLoadedThroughNQuads(languageId: string, text: string, json: string, toMediaType: string)
    requires languageId == "json" || languageId == "jsonld"
    requires PlanConversion(GetDataAndMediaType(languageId, text, json), toMediaType).Convert?
    ensures LoadPlan(Some(PlanConversion(GetDataAndMediaType(languageId, text, json), toMediaType).fromMediaType))
      == ViaNQuads(ParseBase)
  {
  }

  /** Loading and serialising agree on the default: JSON-LD both ways. */
  lemma DefaultsAgree()
    ensures LoadPlan(None) == LoadPlan(Some(JsonLd))
    ensures SerializePlan(None) == SerializePlan(Some(JsonLd)) == Serialize(JsonLd, true)
  {
  }

  /** The line `TripleLine`, whose object is a literal, on its own is read as Turtle. */
  lemma TripleLineIsTurtle(json: string)
    ensures GetDataAndMediaType("turtle", TripleLine, json) == Loaded(TripleLine, Turtle)
  {
    TripleLineIsNotNQuads();
  }

  /** The same statement with a graph term is read as N-Quads. */
  lemma QuadLineIsNQuadsType(json: string)
    ensures GetDataAndMediaType("turtle", QuadLine, json) == Loaded(QuadLine, NQuadsType)
  {
    QuadLineIsNQuads();
  }

  /** The typed-literal quad `TypedQuadLine` is read as Turtle. */
  lemma TypedQuadLineIsTurtle(json: string)
    ensures GetDataAndMediaType("turtle", TypedQuadLine, json) == Loaded(TypedQuadLine, Turtle)
  {
    TypedQuadLineIsNotNQuads();
  }

  /**
   * A typed-literal quad is still read as N-Quads when its literal holds two IRIs
   * separated by a space: the check matches inside the quotes.
   */
  lemma TypedLiteralWithIrisIsNQuads(json: string)
    ensures GetDataAndMediaType("turtle", TypedLiteralWithIrisLine, json)
      == Loaded(TypedLiteralWithIrisLine, NQuadsType)
  {
    TypedLiteralWithIrisMatches();
  }

  /**
   * A Turtle document is read as N-Quads as soon as a three-term statement with an
   * IRI or blank-node object follows a line break, although it has no graph term.
   */
  lemma TripleAfterLineBreakIsNQuads(before: string, s: string, p: string, o: string, after: string, json: string)
    requires IriTerm(s) && IriTerm(p) && GraphTerm(o)
    ensures GetDataAndMediaType("turtle", before + "\n" + s + " " + p + " " + o + " ." + after, json)
      == Loaded(before + "\n" + s + " " + p + " " + o + " ." + after, NQuadsType)
  {
    assert AllSpace("\n");
    TripleAfterSpaceMatches(before, "\n", s, p, o, after);
  }

  /** Two plain triples, neither with a graph term, make an N-Quads document. */
  lemma TwoTriplesAreNQuads(json: string)
    ensures GetDataAndMediaType("turtle", TwoTriples, json) == Loaded(TwoTriples, NQuadsType)
  {
    TwoTriplesParts();
    TripleAfterLineBreakIsNQuads("<urn:x> <urn:y> <urn:z> .", "<urn:a>", "<urn:b>", "<urn:c>", "", json);
  }

  lemma TwoTriplesParts()
    ensures IriTerm("<urn:a>") && IriTerm("<urn:b>") && GraphTerm("<urn:c>")
    ensures TwoTriples
      == "<urn:x> <urn:y> <urn:z> ." + "\n" + "<urn:a>" + " " + "<urn:b>" + " " + "<urn:c>" + " ." + ""
  {
  }

  /** A Turtle document of two triples with IRI objects and no graph term. */
  const TwoTriples: string := "<urn:x> <urn:y> <urn:z> .\n<urn:a> <urn:b> <urn:c> ."

  /**
   * One quad line anywhere in a Turtle document, whatever surrounds it, makes the
   * whole document N-Quads.
   */
  lemma OneQuadLineMakesNQuads(before: string, after: string, json: string)
    ensures GetDataAndMediaType("turtle", before + QuadLine + after, json).fromMediaType == NQuadsType
  {
    QuadLineAnywhereMatches(before, after);
  }
}

=== FILE: nquads.dfy ===
/**
 * The strict N-Quads check `getDataAndMediaType` runs on a Turtle-language document
 * (`STRICT_NQUADS_REGEX`, src/extension.ts:17), read as the set of texts it matches
 * somewhere, the way `String.match` with the global flag succeeds or returns null.
 *
 * The pattern is: an optional subject, whitespace, an IRI predicate, whitespace, an object
 * (IRI, blank node or quoted string), whitespace, a graph term (IRI or blank node),
 * optional whitespace, a full stop and an optional comment. Since the subject and the
 * comment are optional, a match somewhere exists exactly when a match of the middle part
 * exists somewhere. The object's optional datatype suffix begins with the anchor `^`,
 * which can only match at the start of the input and never after a quote, so that suffix
 * only ever matches the empty string and a typed literal is not accepted as an object
 * term. The pattern is not anchored, though, so it may still match terms written
 * inside a literal's quotes, and with the subject left out a plain triple `s p o .`
 * matches after whitespace, its three terms taken as predicate, object and graph.
 */
module NQuads {

  /** JavaScript's `\s`. */
  predicate IsSpace(c: char)
  {
    c == ' ' || c == '\t' || c == '\n' || c == '\r' || c == '\U{000B}' || c == '\U{000C}'
    || c == '\U{00A0}' || c == '\U{1680}' || ('\U{2000}' <= c <= '\U{200A}')
    || c == '\U{2028}' || c == '\U{2029}' || c == '\U{202F}' || c == '\U{205F}'
    || c == '\U{3000}' || c == '\U{FEFF}'
  }

  /** The characters JavaScript's `.` does not match. */
  predicate IsLineTerminator(c: char)
  {
    c == '\n' || c == '\r' || c == '\U{2028}' || c == '\U{2029}'
  }

  predicate AllSpace(w: string)
  {
    forall i | 0 <= i < |w| :: IsSpace(w[i])
  }

  predicate NoSpace(w: string)
  {
    forall i | 0 <= i < |w| :: !IsSpace(w[i])
  }

  /** `<`, one or more non-space characters, `>`. */
  predicate IriTerm(w: string)
  {
    |w| >= 3 && w[0] == '<' && w[|w| - 1] == '>' && NoSpace(w)
  }

  /** `_:` followed by one or more non-space characters. */
  predicate BlankTerm(w: string)
  {
    |w| >= 3 && w[0] == '_' && w[1] == ':' && NoSpace(w)
  }

  /** A quote, any characters but line terminators, a quote. */
  predicate QuotedTerm(w: string)
  {
    |w| >= 2 && w[0] == '"' && w[|w| - 1] == '"'
    && forall i | 0 <= i < |w| :: !IsLineTerminator(w[i])
  }

  predicate ObjectTerm(w: string)
  {
    IriTerm(w) || BlankTerm(w) || QuotedTerm(w)
  }

  predicate GraphTerm(w: string)
  {
    IriTerm(w) || BlankTerm(w)
  }

  // Each stage holds of a position n when some substring ending at n matches the pattern
  // up to and including that stage.

  /**
   * Leading whitespace (one or more). Some run of whitespace ends at n exactly when
   * the character before n is whitespace.
   */
  predicate LeadEnds(t: string, n: nat)
    requires n <= |t|
  {
    n > 0 && IsSpace(t[n - 1])
  }

  /** ... then the predicate IRI. */
  predicate PredicateEnds(t: string, n: nat)
    requires n <= |t|
  {
    exists m {:trigger LeadEnds(t, m)} | 0 <= m <= n :: LeadEnds(t, m) && IriTerm(t[m..n])
  }

  /** ... then whitespace. */
  predicate AfterPredicateEnds(t: string, n: nat)
    requires n <= |t|
  {
    exists m {:trigger PredicateEnds(t, m)} | 0 <= m < n :: PredicateEnds(t, m) && AllSpace(t[m..n])
  }

  /** ... then the object. */
  predicate ObjectEnds(t: string, n: nat)
    requires n <= |t|
  {
    exists m {:trigger AfterPredicateEnds(t, m)} | 0 <= m <= n :: AfterPredicateEnds(t, m) && ObjectTerm(t[m..n])
  }

  /** ... then whitespace. */
  predicate AfterObjectEnds(t: string, n: nat)
    requires n <= |t|
  {
    exists m {:trigger ObjectEnds(t, m)} | 0 <= m < n :: ObjectEnds(t, m) && AllSpace(t[m..n])
  }

  /** ... then the graph term. */
  predicate GraphEnds(t: string, n: nat)
    requires n <= |t|
  {
    exists m {:trigger AfterObjectEnds(t, m)} | 0 <= m <= n :: AfterObjectEnds(t, m) && GraphTerm(t[m..n])
  }

  /** ... then optional whitespace. */
  predicate BeforeDotEnds(t: string, n: nat)
    requires n <= |t|
  {
    exists m {:trigger GraphEnds(t, m)} | 0 <= m <= n :: GraphEnds(t, m) && AllSpace(t[m..n])
  }

  /** `text.match(STRICT_NQUADS_REGEX)` is not null. */
  predicate MatchesSomewhere(t: string)
  {
    exists n {:trigger BeforeDotEnds(t, n)} | 0 <= n < |t| :: BeforeDotEnds(t, n) && t[n] == '.'
  }

  // ---------------------------------------------------------------------------
  // Examples

  /** A subject, a predicate and a literal, with no graph term. */
  const TripleLine: string := "<urn:a> <urn:b> \"c\" ."

  /** The same statement in the graph `<urn:g>`. */
  const QuadLine: string := "<urn:a> <urn:b> \"c\" <urn:g> ."

  /** A quad whose object is a typed literal. */
  const TypedQuadLine: string := "<urn:s> <urn:p> \"5\"^^<urn:t> <urn:g> ."

  /** A graph term ends with `>` unless it is a blank node. */
  lemma GraphEndsShape(t: string, n: nat) returns (m: nat)
    requires n <= |t| && GraphEnds(t, n)
    requires '_' !in t
    ensures n >= 1 && t[n - 1] == '>'
    ensures m < n && t[m] == '<' && AfterObjectEnds(t, m) && NoSpace(t[m..n])
  {
    m :| 0 <= m <= n && AfterObjectEnds(t, m) && GraphTerm(t[m..n]);
    assert t[m..n][0] == t[m];
    assert t[m..n][n - m - 1] == t[n - 1];
  }

  lemma TripleLineChars(n: nat)
    requires n < |TripleLine|
    ensures TripleLine[n] == '.' ==> n == 20
    ensures n == 18 ==> TripleLine[n] == '"'
    ensures n == 19 ==> TripleLine[n] == ' '
    ensures TripleLine[n] != '_'
  {
  }

  /**
   * Without blank nodes, a match needs a `>` as the last non-space character
   * before some full stop.
   */
  lemma NoGraphTermBeforeDot(t: string)
    requires '_' !in t
    requires forall n, m | 0 <= m <= n < |t| && t[n] == '.' && AllSpace(t[m..n]) :: m == 0 || t[m - 1] != '>'
    ensures !MatchesSomewhere(t)
  {
    if MatchesSomewhere(t) {
      var n :| 0 <= n < |t| && BeforeDotEnds(t, n) && t[n] == '.';
      var m :| 0 <= m <= n && GraphEnds(t, m) && AllSpace(t[m..n]);
      var g := GraphEndsShape(t, m);
      assert false;
    }
  }

  /**
   * The three-term line ends in a literal, which cannot stand in for a graph term, so
   * the check does not match it.
   */
  lemma TripleLineIsNotNQuads()
    ensures !MatchesSomewhere(TripleLine)
  {
    var t := TripleLine;
    assert '_' !in t by {
      forall i | 0 <= i < |t| ensures t[i] != '_' {
        TripleLineChars(i);
      }
    }
    forall n, m | 0 <= m <= n < |t| && t[n] == '.' && AllSpace(t[m..n])
      ensures m == 0 || t[m - 1] != '>'
    {
      TripleLineChars(n);
      TripleLineChars(18);
      TripleLineChars(19);
      GapBound(t, m, n, 18);
    }
    NoGraphTermBeforeDot(t);
  }

  lemma IntroPredicate(t: string, m: nat, n: nat)
    requires m <= n <= |t| && LeadEnds(t, m) && IriTerm(t[m..n])
    ensures PredicateEnds(t, n)
  {
  }

  lemma IntroAfterPredicate(t: string, m: nat, n: nat)
    requires m < n <= |t| && PredicateEnds(t, m) && AllSpace(t[m..n])
    ensures AfterPredicateEnds(t, n)
  {
  }

  lemma IntroObject(t: string, m: nat, n: nat)
    requires m <= n <= |t| && AfterPredicateEnds(t, m) && ObjectTerm(t[m..n])
    ensures ObjectEnds(t, n)
  {
  }

  lemma IntroAfterObject(t: string, m: nat, n: nat)
    requires m < n <= |t| && ObjectEnds(t, m) && AllSpace(t[m..n])
    ensures AfterObjectEnds(t, n)
  {
  }

  lemma IntroGraph(t: string, m: nat, n: nat)
    requires m <= n <= |t| && AfterObjectEnds(t, m) && GraphTerm(t[m..n])
    ensures GraphEnds(t, n)
  {
  }

  lemma IntroMatch(t: string, m: nat, n: nat)
    requires m <= n < |t| && GraphEnds(t, m) && AllSpace(t[m..n]) && t[n] == '.'
    ensures MatchesSomewhere(t)
  {
    assert BeforeDotEnds(t, n);
  }

  lemma PrefixOccurs(t: string, x: string)
    ensures OccursAt(t + x, 0, t)
    ensures (t + x)[|t|..|t + x|] == x
  {
    assert (t + x)[0..|t|] == t;
  }

  lemma AppendPredicate(t: string, p: string)
    requires LeadEnds(t, |t|) && IriTerm(p)
    ensures PredicateEnds(t + p, |t + p|)
  {
    PrefixOccurs(t, p);
    ShiftLead(t + p, 0, t, |t|);
    IntroPredicate(t + p, |t|, |t + p|);
  }

  lemma AppendAfterPredicate(t: string, w: string)
    requires PredicateEnds(t, |t|) && |w| > 0 && AllSpace(w)
    ensures AfterPredicateEnds(t + w, |t + w|)
  {
    PrefixOccurs(t, w);
    ShiftPredicate(t + w, 0, t, |t|);
    IntroAfterPredicate(t + w, |t|, |t + w|);
  }

  lemma AppendObject(t: string, o: string)
    requires AfterPredicateEnds(t, |t|) && ObjectTerm(o)
    ensures ObjectEnds(t + o, |t + o|)
  {
    PrefixOccurs(t, o);
    ShiftAfterPredicate(t + o, 0, t, |t|);
    IntroObject(t + o, |t|, |t + o|);
  }

  lemma AppendAfterObject(t: string, w: string)
    requires ObjectEnds(t, |t|) && |w| > 0 && AllSpace(w)
    ensures AfterObjectEnds(t + w, |t + w|)
  {
    PrefixOccurs(t, w);
    ShiftObject(t + w, 0, t, |t|);
    IntroAfterObject(t + w, |t|, |t + w|);
  }

  lemma AppendGraph(t: string, g: string)
    requires AfterObjectEnds(t, |t|) && GraphTerm(g)
    ensures GraphEnds(t + g, |t + g|)
  {
    PrefixOccurs(t, g);
    ShiftAfterObject(t + g, 0, t, |t|);
    IntroGraph(t + g, |t|, |t + g|);
  }

  lemma AppendDot(t: string, w: string)
    requires GraphEnds(t, |t|) && AllSpace(w)
    ensures MatchesSomewhere(t + w + ".")
  {
    var u := t + w + ".";
    assert OccursAt(u, 0, t) by {
      assert u[0..|t|] == t;
    }
    ShiftGraph(u, 0, t, |t|);
    assert u[|t|..|t| + |w|] == w;
    IntroMatch(u, |t|, |t| + |w|);
  }

  /**
   * Completeness: whitespace, an IRI, whitespace, an object term, whitespace, a graph
   * term, optional whitespace and a full stop, anywhere in the text, make it match.
   */
  lemma StatementShapeMatches(
    before: string, s1: string, p: string, s2: string, o: string, s3: string,
    g: string, s4: string, after: string)
    requires |s1| > 0 && AllSpace(s1) && IriTerm(p)
    requires |s2| > 0 && AllSpace(s2) && ObjectTerm(o)
    requires |s3| > 0 && AllSpace(s3) && GraphTerm(g) && AllSpace(s4)
    ensures MatchesSomewhere(before + (s1 + p + s2 + o + s3 + g + s4 + ".") + after)
  {
    assert LeadEnds(s1, |s1|) by { assert s1[|s1| - 1] in s1; }
    AppendPredicate(s1, p);
    AppendAfterPredicate(s1 + p, s2);
    AppendObject(s1 + p + s2, o);
    AppendAfterObject(s1 + p + s2 + o, s3);
    AppendGraph(s1 + p + s2 + o + s3, g);
    AppendDot(s1 + p + s2 + o + s3 + g, s4);
    MatchSurvivesContext(before, s1 + p + s2 + o + s3 + g + s4 + ".", after);
  }

  // Each stage's witness, picked one stage at a time.

  lemma PickDot(t: string) returns (n: nat)
    requires MatchesSomewhere(t)
    ensures n < |t| && BeforeDotEnds(t, n) && t[n] == '.'
  {
    n :| 0 <= n < |t| && BeforeDotEnds(t, n) && t[n] == '.';
  }

  lemma PickGraph(t: string, n: nat) returns (m: nat)
    requires n <= |t| && BeforeDotEnds(t, n)
    ensures m <= n && GraphEnds(t, m) && AllSpace(t[m..n])
  {
    m :| 0 <= m <= n && GraphEnds(t, m) && AllSpace(t[m..n]);
  }

  lemma PickAfterObject(t: string, n: nat) returns (m: nat)
    requires n <= |t| && GraphEnds(t, n)
    ensures m <= n && AfterObjectEnds(t, m) && GraphTerm(t[m..n])
  {
    m :| 0 <= m <= n && AfterObjectEnds(t, m) && GraphTerm(t[m..n]);
  }

  lemma PickObject(t: string, n: nat) returns (m: nat)
    requires n <= |t| && AfterObjectEnds(t, n)
    ensures m < n && ObjectEnds(t, m) && AllSpace(t[m..n])
  {
    m :| 0 <= m < n && ObjectEnds(t, m) && AllSpace(t[m..n]);
  }

  lemma PickAfterPredicate(t: string, n: nat) returns (m: nat)
    requires n <= |t| && ObjectEnds(t, n)
    ensures m <= n && AfterPredicateEnds(t, m) && ObjectTerm(t[m..n])
  {
    m :| 0 <= m <= n && AfterPredicateEnds(t, m) && ObjectTerm(t[m..n]);
  }

  lemma PickPredicate(t: string, n: nat) returns (m: nat)
    requires n <= |t| && AfterPredicateEnds(t, n)
    ensures m < n && PredicateEnds(t, m) && AllSpace(t[m..n])
  {
    m :| 0 <= m < n && PredicateEnds(t, m) && AllSpace(t[m..n]);
  }

  lemma PickLead(t: string, n: nat) returns (m: nat)
    requires n <= |t| && PredicateEnds(t, n)
    ensures 0 < m <= n && IsSpace(t[m - 1]) && IriTerm(t[m..n])
  {
    m :| 0 <= m <= n && LeadEnds(t, m) && IriTerm(t[m..n]);
  }

  /** Consecutive slices of a text put back together give the text. */
  lemma JoinSlices(t: string, a: nat, b: nat, c: nat, d: nat, e: nat, f: nat, g: nat, n: nat)
    requires a <= b <= c <= d <= e <= f <= g <= n < |t|
    ensures t == t[..a] + (t[a..b] + t[b..c] + t[c..d] + t[d..e] + t[e..f] + t[f..g] + t[g..n] + t[n..n + 1])
      + t[n + 1..]
  {
    AdjacentSlices(t, a, b, c);
    AdjacentSlices(t, a, c, d);
    AdjacentSlices(t, a, d, e);
    AdjacentSlices(t, a, e, f);
    AdjacentSlices(t, a, f, g);
    AdjacentSlices(t, a, g, n);
    AdjacentSlices(t, a, n, n + 1);
    AdjacentSlices(t, 0, a, n + 1);
    AdjacentSlices(t, 0, n + 1, |t|);
  }

  lemma AdjacentSlices(t: string, i: nat, j: nat, k: nat)
    requires i <= j <= k <= |t|
    ensures t[i..j] + t[j..k] == t[i..k]
  {
  }

  /** The positions where the stages of a match end. */
  lemma MatchPositions(t: string) returns (m0: nat, m1: nat, m2: nat, m3: nat, m4: nat, m5: nat, n: nat)
    requires MatchesSomewhere(t)
    ensures 0 < m0 <= m1 < m2 <= m3 < m4 <= m5 <= n < |t|
    ensures IsSpace(t[m0 - 1]) && IriTerm(t[m0..m1]) && AllSpace(t[m1..m2]) && ObjectTerm(t[m2..m3])
    ensures AllSpace(t[m3..m4]) && GraphTerm(t[m4..m5]) && AllSpace(t[m5..n]) && t[n] == '.'
  {
    n := PickDot(t);
    m5 := PickGraph(t, n);
    m4 := PickAfterObject(t, m5);
    m3 := PickObject(t, m4);
    m2 := PickAfterPredicate(t, m3);
    m1 := PickPredicate(t, m2);
    m0 := PickLead(t, m1);
  }

  /**
   * Soundness, the converse of `StatementShapeMatches`: every text the check matches
   * holds whitespace, an IRI, whitespace, an object term, whitespace, a graph term,
   * optional whitespace and a full stop, somewhere.
   */
  lemma MatchDecomposes(t: string) returns (before: string, s1: string, p: string, s2: string, o: string,
                                            s3: string, g: string, s4: string, after: string)
    requires MatchesSomewhere(t)
    ensures t == before + (s1 + p + s2 + o + s3 + g + s4 + ".") + after
    ensures |s1| > 0 && AllSpace(s1) && IriTerm(p)
    ensures |s2| > 0 && AllSpace(s2) && ObjectTerm(o)
    ensures |s3| > 0 && AllSpace(s3) && GraphTerm(g) && AllSpace(s4)
  {
    var m0, m1, m2, m3, m4, m5, n := MatchPositions(t);
    before, s1, p, s2, o, s3, g, s4, after := SplitAtPositions(t, m0, m1, m2, m3, m4, m5, n);
  }

  /** Cuts a text at the stage positions of a match. */
  lemma SplitAtPositions(t: string, m0: nat, m1: nat, m2: nat, m3: nat, m4: nat, m5: nat, n: nat)
    returns (before: string, s1: string, p: string, s2: string, o: string,
             s3: string, g: string, s4: string, after: string)
    requires 0 < m0 <= m1 < m2 <= m3 < m4 <= m5 <= n < |t|
    requires IsSpace(t[m0 - 1]) && IriTerm(t[m0..m1]) && AllSpace(t[m1..m2]) && ObjectTerm(t[m2..m3])
    requires AllSpace(t[m3..m4]) && GraphTerm(t[m4..m5]) && AllSpace(t[m5..n]) && t[n] == '.'
    ensures t == before + (s1 + p + s2 + o + s3 + g + s4 + ".") + after
    ensures |s1| > 0 && AllSpace(s1) && IriTerm(p)
    ensures |s2| > 0 && AllSpace(s2) && ObjectTerm(o)
    ensures |s3| > 0 && AllSpace(s3) && GraphTerm(g) && AllSpace(s4)
  {
    JoinSlices(t, m0 - 1, m0, m1, m2, m3, m4, m5, n);
    before, s1, p, s2, o := t[..m0 - 1], t[m0 - 1..m0], t[m0..m1], t[m1..m2], t[m2..m3];
    s3, g, s4, after := t[m3..m4], t[m4..m5], t[m5..n], t[n + 1..];
    assert s1 == [t[m0 - 1]];
    assert t[n..n + 1] == ".";
  }

  /** With a graph term the same statement matches. */
  lemma QuadLineIsNQuads()
    ensures MatchesSomewhere(QuadLine)
  {
    assert IriTerm("<urn:b>");
    assert ObjectTerm("\"c\"");
    assert GraphTerm("<urn:g>");
    StatementShapeMatches("<urn:a>", " ", "<urn:b>", " ", "\"c\"", " ", "<urn:g>", " ", "");
    QuadLineParts();
  }

  /** `QuadLine` split into the parts `StatementShapeMatches` takes. */
  lemma QuadLineParts()
    ensures QuadLine == "<urn:a>" + (" " + "<urn:b>" + " " + "\"c\"" + " " + "<urn:g>" + " " + ".") + ""
  {
  }

  /**
   * A quad whose typed literal holds two IRIs separated by a space. The pattern
   * is not anchored, so it can match inside the quotes.
   */
  const TypedLiteralWithIrisLine: string := "<s> <p> \"see <a> <b>\"^^<t> <g> ."

  /**
   * A typed literal is never accepted as an object term, yet a quad with one can
   * still match: here `<a>` is taken as the predicate and `<b>"^^<t>` as an IRI object.
   */
  lemma TypedLiteralWithIrisMatches()
    ensures MatchesSomewhere(TypedLiteralWithIrisLine)
  {
    var o := "<b>\"^^<t>";
    assert IriTerm(o) by {
      assert forall i | 0 <= i < |o| :: o[i] in "<b\"^t>";
    }
    StatementShapeMatches("<s> <p> \"see", " ", "<a>", " ", o, " ", "<g>", " ", "");
    TypedLiteralWithIrisParts();
  }

  lemma TypedLiteralWithIrisParts()
    ensures TypedLiteralWithIrisLine
      == "<s> <p> \"see" + (" " + "<a>" + " " + "<b>\"^^<t>" + " " + "<g>" + " " + ".") + ""
  {
  }

  /** An object term that ends with `>` and is not a blank node is an IRI starting with `<`. */
  lemma ObjectEndsShape(t: string, n: nat) returns (m: nat)
    requires n <= |t| && ObjectEnds(t, n)
    requires '_' !in t && n >= 1 && t[n - 1] == '>'
    ensures m < n && t[m] == '<' && AfterPredicateEnds(t, m) && NoSpace(t[m..n])
  {
    m :| 0 <= m <= n && AfterPredicateEnds(t, m) && ObjectTerm(t[m..n]);
    assert t[m..n][0] == t[m];
    assert t[m..n][n - m - 1] == t[n - 1];
  }

  /** Whitespace ending at n > 0 means t[n-1] is a space. */
  lemma SpaceBefore(t: string, m: nat, n: nat)
    requires m < n <= |t| && AllSpace(t[m..n])
    ensures IsSpace(t[n - 1])
  {
    assert t[m..n][n - 1 - m] == t[n - 1];
  }

  /**
   * No match when the only full stop is at 37, the only graph term can be the IRI at
   * 29..36, and the only object term that could end before it is the IRI at 21..28,
   * which follows a non-space character.
   */
  lemma NoMatchWithDetachedObject(t: string)
    requires |t| == 38 && '_' !in t
    requires forall i | 0 <= i < |t| :: t[i] == '.' ==> i == 37
    requires t[35] == '>' && t[36] == ' ' && t[27] == '>' && t[28] == ' ' && t[15] == ' '
    requires !IsSpace(t[20])
    requires forall i | 30 <= i < 36 :: t[i] != '<'
    requires forall i | 16 <= i < 28 :: t[i] == '<' ==> i == 21
    ensures !MatchesSomewhere(t)
  {
    if MatchesSomewhere(t) {
      MatchNeedsDotAt(t, 37);
      DotNeedsGraphBefore(t);
      GraphNeedsGapBefore(t);
      GapNeedsObjectBefore(t);
      NoObjectBefore(t);
    }
  }

  /** A run of whitespace ending at n starts after any non-space character before n. */
  lemma GapBound(t: string, k: nat, n: nat, j: nat)
    requires k <= n <= |t| && AllSpace(t[k..n]) && j < n && !IsSpace(t[j])
    ensures k > j
  {
  }

  /** A token without whitespace ending at n starts after any space before n. */
  lemma TokenBound(t: string, k: nat, n: nat, j: nat)
    requires k <= n <= |t| && NoSpace(t[k..n]) && j < n && IsSpace(t[j])
    ensures k > j
  {
  }

  lemma MatchNeedsDotAt(t: string, d: nat)
    requires d < |t| && MatchesSomewhere(t)
    requires forall i | 0 <= i < |t| :: t[i] == '.' ==> i == d
    ensures BeforeDotEnds(t, d)
  {
  }

  lemma DotNeedsGraphBefore(t: string)
    requires |t| == 38 && '_' !in t && BeforeDotEnds(t, 37)
    requires t[35] == '>' && t[36] == ' '
    ensures GraphEnds(t, 36)
  {
    var m :| 0 <= m <= 37 && GraphEnds(t, m) && AllSpace(t[m..37]);
    var g := GraphEndsShape(t, m);
    GapBound(t, m, 37, 35);
    assert m == 36;
  }

  lemma GraphNeedsGapBefore(t: string)
    requires |t| == 38 && '_' !in t && GraphEnds(t, 36)
    requires t[28] == ' '
    requires forall i | 30 <= i < 36 :: t[i] != '<'
    ensures AfterObjectEnds(t, 29)
  {
    var g := GraphEndsShape(t, 36);
    TokenBound(t, g, 36, 28);
    assert g == 29;
  }

  lemma GapNeedsObjectBefore(t: string)
    requires |t| == 38 && AfterObjectEnds(t, 29) && t[27] == '>'
    ensures ObjectEnds(t, 28)
  {
    var k :| 0 <= k < 29 && ObjectEnds(t, k) && AllSpace(t[k..29]);
    GapBound(t, k, 29, 27);
    assert k == 28;
  }

  lemma NoObjectBefore(t: string)
    requires |t| == 38 && '_' !in t
    requires t[27] == '>' && t[15] == ' ' && !IsSpace(t[20])
    requires forall i | 16 <= i < 28 :: t[i] == '<' ==> i == 21
    ensures !ObjectEnds(t, 28)
  {
    if ObjectEnds(t, 28) {
      var o := ObjectEndsShape(t, 28);
      TokenBound(t, o, 28, 15);
      var q :| 0 <= q < o && PredicateEnds(t, q) && AllSpace(t[q..o]);
      SpaceBefore(t, q, o);
    }
  }

  lemma TypedQuadLineChars(i: nat)
    requires i < |TypedQuadLine|
    ensures TypedQuadLine[i] != '_'
    ensures TypedQuadLine[i] == '.' ==> i == 37
    ensures 30 <= i < 36 ==> TypedQuadLine[i] != '<'
    ensures 16 <= i < 28 && TypedQuadLine[i] == '<' ==> i == 21
  {
  }

  /**
   * A typical N-Quads line with a typed literal object does not match: the datatype
   * suffix is never accepted, and nothing inside this literal can stand for the
   * statement's terms. `TypedLiteralWithIrisMatches` shows a literal that can.
   */
  lemma TypedQuadLineIsNotNQuads()
    ensures !MatchesSomewhere(TypedQuadLine)
  {
    var t := TypedQuadLine;
    assert |t| == 38;
    assert '_' !in t by {
      forall i | 0 <= i < |t| ensures t[i] != '_' {
        TypedQuadLineChars(i);
      }
    }
    forall i | 0 <= i < |t| ensures t[i] == '.' ==> i == 37 {
      TypedQuadLineChars(i);
    }
    forall i | 30 <= i < 36 ensures t[i] != '<' {
      TypedQuadLineChars(i);
    }
    forall i | 16 <= i < 28 ensures t[i] == '<' ==> i == 21 {
      TypedQuadLineChars(i);
    }
    assert t[35] == '>' && t[36] == ' ' && t[27] == '>' && t[28] == ' ' && t[15] == ' ' && t[20] == '^';
    NoMatchWithDetachedObject(t);
  }

  // ---------------------------------------------------------------------------
  // The check looks for a match anywhere, not at the start or over the whole text.

  /** `t` occurs in `w` at offset `k`. */
  predicate OccursAt(w: string, k: nat, t: string)
  {
    k + |t| <= |w| && w[k..k + |t|] == t
  }

  lemma SliceOfOccurrence(w: string, k: nat, t: string, m: nat, n: nat)
    requires OccursAt(w, k, t) && m <= n <= |t|
    ensures w[k + m..k + n] == t[m..n]
  {
    forall i | 0 <= i < n - m
      ensures w[k + m..k + n][i] == t[m..n][i]
    {
      assert w[k..k + |t|][m + i] == w[k + m + i];
    }
  }

  lemma ShiftLead(w: string, k: nat, t: string, n: nat)
    requires OccursAt(w, k, t) && n <= |t| && LeadEnds(t, n)
    ensures LeadEnds(w, k + n)
  {
    assert w[k..k + |t|][n - 1] == t[n - 1];
  }

  lemma ShiftPredicate(w: string, k: nat, t: string, n: nat)
    requires OccursAt(w, k, t) && n <= |t| && PredicateEnds(t, n)
    ensures PredicateEnds(w, k + n)
  {
    var m :| 0 <= m <= n && LeadEnds(t, m) && IriTerm(t[m..n]);
    ShiftLead(w, k, t, m);
    SliceOfOccurrence(w, k, t, m, n);
    assert LeadEnds(w, k + m) && IriTerm(w[k + m..k + n]);
  }

  lemma ShiftAfterPredicate(w: string, k: nat, t: string, n: nat)
    requires OccursAt(w, k, t) && n <= |t| && AfterPredicateEnds(t, n)
    ensures AfterPredicateEnds(w, k + n)
  {
    var m :| 0 <= m < n && PredicateEnds(t, m) && AllSpace(t[m..n]);
    ShiftPredicate(w, k, t, m);
    SliceOfOccurrence(w, k, t, m, n);
    assert PredicateEnds(w, k + m) && AllSpace(w[k + m..k + n]);
  }

  lemma ShiftObject(w: string, k: nat, t: string, n: nat)
    requires OccursAt(w, k, t) && n <= |t| && ObjectEnds(t, n)
    ensures ObjectEnds(w, k + n)
  {
    var m :| 0 <= m <= n && AfterPredicateEnds(t, m) && ObjectTerm(t[m..n]);
    ShiftAfterPredicate(w, k, t, m);
    SliceOfOccurrence(w, k, t, m, n);
    assert AfterPredicateEnds(w, k + m) && ObjectTerm(w[k + m..k + n]);
  }

  lemma ShiftAfterObject(w: string, k: nat, t: string, n: nat)
    requires OccursAt(w, k, t) && n <= |t| && AfterObjectEnds(t, n)
    ensures AfterObjectEnds(w, k + n)
  {
    var m :| 0 <= m < n && ObjectEnds(t, m) && AllSpace(t[m..n]);
    ShiftObject(w, k, t, m);
    SliceOfOccurrence(w, k, t, m, n);
    assert ObjectEnds(w, k + m) && AllSpace(w[k + m..k + n]);
  }

  lemma ShiftGraph(w: string, k: nat, t: string, n: nat)
    requires OccursAt(w, k, t) && n <= |t| && GraphEnds(t, n)
    ensures GraphEnds(w, k + n)
  {
    var m :| 0 <= m <= n && AfterObjectEnds(t, m) && GraphTerm(t[m..n]);
    ShiftAfterObject(w, k, t, m);
    SliceOfOccurrence(w, k, t, m, n);
    assert AfterObjectEnds(w, k + m) && GraphTerm(w[k + m..k + n]);
  }

  lemma ShiftBeforeDot(w: string, k: nat, t: string, n: nat)
    requires OccursAt(w, k, t) && n <= |t| && BeforeDotEnds(t, n)
    ensures BeforeDotEnds(w, k + n)
  {
    var m :| 0 <= m <= n && GraphEnds(t, m) && AllSpace(t[m..n]);
    ShiftGraph(w, k, t, m);
    SliceOfOccurrence(w, k, t, m, n);
    assert GraphEnds(w, k + m) && AllSpace(w[k + m..k + n]);
  }

  lemma MiddleOccurs(u: string, t: string, v: string, n: nat)
    requires n < |t|
    ensures OccursAt(u + t + v, |u|, t)
    ensures (u + t + v)[|u| + n] == t[n]
  {
    assert (u + t + v)[|u|..|u| + |t|] == t;
  }

  /** Text around a match never hides it: one quad line anywhere is enough. */
  lemma MatchSurvivesContext(u: string, t: string, v: string)
    requires MatchesSomewhere(t)
    ensures MatchesSomewhere(u + t + v)
  {
    var n :| 0 <= n < |t| && BeforeDotEnds(t, n) && t[n] == '.';
    MiddleOccurs(u, t, v, n);
    ShiftBeforeDot(u + t + v, |u|, t, n);
  }

  /** A Turtle document that contains one N-Quads line anywhere matches. */
  /**
   * A three-term statement `s p o .` with an IRI or blank-node object matches once
   * whitespace comes before it: the optional subject group is left empty and the
   * three terms stand in for predicate, object and graph. No graph term is needed.
   */
  lemma TripleAfterSpaceMatches(before: string, ws: string, s: string, p: string, o: string, after: string)
    requires |ws| > 0 && AllSpace(ws) && IriTerm(s) && IriTerm(p) && GraphTerm(o)
    ensures MatchesSomewhere(before + ws + s + " " + p + " " + o + " ." + after)
  {
    StatementShapeMatches(before, ws, s, " ", p, " ", o, " ", after);
    assert before + ws + s + " " + p + " " + o + " ." + after
      == before + (ws + s + " " + p + " " + o + " " + ".") + after;
  }

  lemma QuadLineAnywhereMatches(before: string, after: string)
    ensures MatchesSomewhere(before + QuadLine + after)
  {
    QuadLineIsNQuads();
    MatchSurvivesContext(before, QuadLine, after);
  }
}

=== FILE: rdf.dfy ===
/**
 * RDF terms and statements as the visualisation compiler sees them,
 * and the rdflib rendering functions it calls, kept uninterpreted.
 */
module Rdf {

  /** The IRI of `rdf:type`. */
  const RdfType: string := "http://www.w3.org/1999/02/22-rdf-syntax-ns#type"

  /** The marker that rdflib's default graph renders as. */
  const DefaultGraphMarker: string := "DefaultGraph"

  /**
   * An RDF term. `value` is rdflib's `term.value`; a collection (RDF list) is a
   * shape the identifier builder refuses.
   */
  datatype Term =
    | NamedNode(iri: string)
    | BlankNode(nodeId: string)
    | Literal(lexical: string, datatypeIri: string, language: string)
    | DefaultGraph
    | Collection(elements: seq<Term>)

  /** A quad; the predicate is always a named node, so it is kept as its IRI. */
  datatype Statement = Statement(subject: Term, predicateIri: string, obj: Term, graph: Term)

  /**
   * rdflib's rendering of terms, which this model does not look inside:
   * `abbreviate` is the serializer's `atomicTermToN3` (prefix abbreviation),
   * `toNT` is `term.toNT()` and `toText` is `term.toString()`.
   */
  datatype Printer = Printer(abbreviate: Term -> string, toNT: Term -> string, toText: Term -> string)

  /** rdflib's `isGraph`: the term kinds that may name a graph. */
  predicate IsGraphTerm(t: Term)
  {
    t.NamedNode? || t.BlankNode? || t.DefaultGraph?
  }

  /** `term.value` for the term kinds that have one. */
  function Value(t: Term): (r: string)
    requires t.NamedNode? || t.BlankNode?
  {
    if t.NamedNode? then t.iri else t.nodeId
  }

  /** `term.toString()`; the default graph always renders as its marker. */
  function TermText(pr: Printer, t: Term): (r: string)
  {
    if t.DefaultGraph? then DefaultGraphMarker else pr.toText(t)
  }
}

=== FILE: wrappers.dfy ===
/** Failure-carrying values shared by the other modules. */
module Wrappers {

  /** A value that may be absent; `None` stands for JavaScript's `undefined`. */
  datatype Option<+T> = None | Some(value: T)

  /** The value of a computation that may throw. */
  datatype Result<+T, +E> = Success(value: T) | Failure(error: E)

  /** The outcome of a computation that changes state and may throw. */
  datatype Outcome<+E> = Pass | Fail(error: E)
}
